=== FILE: README.md ===
# CRADI admin dashboard — a Dafny model

This project models the logic of the CRADI administrative dashboard and of its
provisioning scripts. The dashboard is a web UI over a hosted
Backend-as-a-Service (BaaS) with accounts, a document database and collection
permissions. The model covers four groups:

- **Admin gate** (`auth_gate.dfy`, `page_guard.dfy`). Restoring a session,
  signing in and signing out form a state machine over `user`, `loading` and
  the last requested navigation. The identity provider is abstract: a directory
  of credentials plus the current session. Each round trip (create, get,
  delete) may fail, selected by a `Net` record. The redirect-or-fetch guard
  every dashboard page runs sits on top of it.
- **Dashboard list logic** (`reports_page.dfy`, `dashboard_stats.dfy`,
  `users_page.dfy`, `knowledge_page.dfy`). These are the search filters,
  status filter, colour classifiers, report actions, statistics counters,
  verified badge, article preview and badges. Documents are immutable
  datatypes with `Option` fields for values that may be missing.
- **Permission builder** (`permissions.dfy`). It holds the per-collection role
  table, the role-to-permission translation, and the loop that applies it
  collection by collection.
- **Provisioning decisions** (`add_platform.dfy`, `missing_attributes.dfy`,
  `create_admin.dfy`). These are the HTTP reply classification, the
  add-if-absent platform registration, the skip/create attribute loop, and the
  admin-creation step order.

Shared helpers: `wrappers.dfy` (`Option`, `Result`), `text.dfy` (ASCII
`toLowerCase`, `includes` as substring, folded field match) and `lists.dfy`
(`filter`, sub-sequence, counting).

The gate's central invariant is `AuthGate.Gated`: the context only ever holds
an account whose labels contain `admin`. `AuthGate.RunKeepsGated` proves it
for every sequence of restores, sign-ins and sign-outs, under every pattern of
network failures.

The gate's failure paths, as the code handles them:

- `logout` clears `user` and asks for `/login` only when the session deletion
  succeeds. When deletion fails, `user` stays as it was (`AuthGate.Logout`,
  `AuthGate.LogoutFailureKeepsUser`).
- A non-admin session is revoked only when the deletion call gets through. If
  it fails, `checkAuth` still leaves `user` empty but the session stays alive.
  In `login`, the deletion's own error is rethrown in place of
  "Admin access required", and the new session stays alive
  (`AuthGate.LoginDeleteFailureLeavesSession`).
- `login` does not check that the e-mail or password is non-empty; the
  identity provider decides.
- If the account fetch fails after `login` created a session, that session is
  left alive (`AuthGate.LoginFetchFailureLeavesSession`).

## Model

| member | source | states |
|---|---|---|
| AuthGate.CheckAuth | lib/auth-context.tsx:27-46 | after a restore, `user` is set iff the fetched account is an admin, and then it equals the session's account; loading is false on every path; a non-admin session is revoked exactly when the deletion gets through; no other path touches the provider |
| AuthGate.Login | lib/auth-context.tsx:48-75 | sign-in succeeds (user set, dashboard requested) iff the credentials are registered, both calls get through and the account is an admin; any throw leaves the context unchanged; "Admin access required" is thrown iff a non-admin's new session was deleted; a credential or network failure on creation leaves the provider unchanged |
| AuthGate.Logout | lib/auth-context.tsx:77-87 | with a session and a working deletion, the user is cleared, `/login` is requested and the session is gone; otherwise nothing changes and nothing is thrown |
| AuthGate.ApplyKeepsGated | lib/auth-context.tsx:27-87 | each operation keeps the admin-only invariant on `user`; a restore establishes it from any state |
| AuthGate.RunKeepsGated | lib/auth-context.tsx:27-87 | over any sequence of restores, sign-ins and sign-outs with any failures, `user` never holds a non-admin account |
| AuthGate.FromMountGated | lib/auth-context.tsx:18-25 | from the state at mount (nobody signed in, restore pending), no sequence of operations and failures ever puts a non-admin in `user` |
| AuthGate.RunKeepsDirectory | lib/auth-context.tsx:27-87 | the gate never alters the registered accounts, only the session |
| AuthGate.CheckAuthRevokesNonAdmin | lib/auth-context.tsx:36-39 | after a restore sees a non-admin and the deletion gets through, fetching the current account fails, whatever the network does |
| AuthGate.LoginLogoutRestore | lib/auth-context.tsx:77-82 | a successful sign-in followed by a successful sign-out leaves no session, so the next restore signs nobody in |
| AuthGate.LogoutTwice | lib/auth-context.tsx:77-87 | a second sign-out right after a successful one fails silently and changes nothing; nobody stays signed in |
| AuthGate.LogoutFailureKeepsUser | lib/auth-context.tsx:83-86 | when the deletion fails, even for want of a session, the signed-in user is kept |
| AuthGate.LoginFetchFailureLeavesSession | lib/auth-context.tsx:50-51 | when the account fetch fails after the session was created, the network error is rethrown and the new session stays alive |
| AuthGate.LoginDeleteFailureLeavesSession | lib/auth-context.tsx:56-73 | when a non-admin's new session cannot be deleted, `login` rethrows the deletion's network error instead of "Admin access required", the context is unchanged and the session stays alive |
| PageGuard.OnAuthChange | app/dashboard/page.tsx:35-41 | redirect to login iff auth has finished and nobody is signed in; fetch iff somebody is signed in; otherwise wait |
| PageGuard.ShowsContent | app/dashboard/page.tsx:77-85 | the page is rendered once auth has finished and a user is set, and never while auth is loading; whenever it is rendered the guard fetches data, so a redirecting page shows the spinner |
| PageGuard.GuardServesOnlyAdmins | app/dashboard/page.tsx:77-83 | under the gate invariant, data is fetched and content shown only for an admin, and content is shown only when the guard fetches |
| PageGuard.AfterRestoreNeverIdle | app/dashboard/page.tsx:35-41 | after a restore the page either fetches, exactly when the session is an admin's, or redirects; it never waits |
| ReportsPage.FilteredReports | app/dashboard/reports/page.tsx:66-75 | the shown reports are an order-preserving sub-sequence of the fetched ones; a report is shown iff it matches the search and the status filter; with a filter other than "all", every shown status equals it exactly |
| ReportsPage.FilteredCount | app/dashboard/reports/page.tsx:248 | the "Showing n" count equals the number of fetched reports accepted by search and status, duplicates included |
| ReportsPage.FilteredMultiplicity | app/dashboard/reports/page.tsx:66-75 | a kept report is shown as many times as it was fetched, a dropped one never |
| ReportsPage.LongQueryMatchesNothing | app/dashboard/reports/page.tsx:67-70 | a query longer than each present searched field matches nothing |
| ReportsPage.SearchFacts | app/dashboard/reports/page.tsx:67-70 | the search ignores the query's case; a report with no type, description or location never matches; the empty query matches exactly the reports with one of them |
| ReportsPage.AllStatusesIsSearchOnly | app/dashboard/reports/page.tsx:72 | with "all" selected, a report is shown iff it matches the search |
| ReportsPage.SeverityColour | app/dashboard/reports/page.tsx:77-90 | the severity badge is red, orange, yellow, blue or gray, never green, and gray for a missing severity |
| ReportsPage.StatusColour | app/dashboard/reports/page.tsx:92-105 | the status badge is green, yellow, red or gray, never orange or blue, and gray for a missing status |
| ReportsPage.ColoursIgnoreCase | app/dashboard/reports/page.tsx:77-105 | severity and status colours depend on the word only up to letter case |
| ReportsPage.SeverityColourTable | app/dashboard/reports/page.tsx:77-90 | red, orange, yellow and blue exactly for critical, high, medium and low in any case; never green; gray otherwise |
| ReportsPage.StatusColourTable | app/dashboard/reports/page.tsx:92-105 | green exactly for verified or resolved, yellow for pending or submitted, red for rejected, in any case; gray for a missing status; never orange or blue |
| ReportsPage.ActionStatus | app/dashboard/reports/page.tsx:222-236 | each button writes its own lower-case status: Verify exactly "verified", Resolve exactly "resolved", Reject exactly "rejected" |
| ReportsPage.ActionsOffered | app/dashboard/reports/page.tsx:220 | the actions are offered iff the status is neither exactly "verified" nor exactly "resolved", so pending, submitted, rejected, missing and differently-cased statuses offer them |
| ReportsPage.UpdateReportStatus | app/dashboard/reports/page.tsx:53-64 | the update succeeds iff the call gets through and the id exists; then the matching report gets the written status and every other report is untouched |
| ReportsPage.ActionOutcome | app/dashboard/reports/page.tsx:220-236 | after Verify or Resolve the buttons disappear and the status shows green; after Reject it shows red and the buttons stay |
| ReportsPage.VisibilityIsCaseSensitive | app/dashboard/reports/page.tsx:220 | a status "Verified" is coloured green yet still offers the actions |
| DashboardStats.FetchStats | app/dashboard/page.tsx:43-75 | loading ends false; a failed fetch keeps the previous statistics; otherwise totals come from the store, and pending/resolved are the lengths of the bucket filters over fetched reports, together at most the number fetched |
| DashboardStats.BucketsBounded | app/dashboard/page.tsx:55-60 | the pending and resolved buckets are disjoint, so their counts sum to at most the number of fetched reports; each equals its filter's length |
| DashboardStats.UncountedStatuses | app/dashboard/page.tsx:55-60 | missing, rejected and differently-cased statuses such as "Pending" fall in neither bucket |
| DashboardStats.BucketsAgreeWithColours | app/dashboard/page.tsx:55-60 | every counted pending report is yellow and every resolved one green on the reports page; "Pending" is yellow but not counted |
| UsersPage.FilteredUsers | app/dashboard/users/page.tsx:50-55 | the shown users are an order-preserving sub-sequence of the fetched ones; a user is shown iff the search matches |
| UsersPage.EmptyQueryKeepsPresent | app/dashboard/users/page.tsx:50-55 | a user with no name, e-mail or phone never matches; the empty query keeps exactly the users with at least one |
| UsersPage.PhoneIsCaseSensitive | app/dashboard/users/page.tsx:54 | the same text matches a lower-case query as a name but not as a phone number |
| UsersPage.NameAndEmailIgnoreQueryCase | app/dashboard/users/page.tsx:52-53 | without a phone number, the query's case never changes the match |
| UsersPage.VerifiedBadge | app/dashboard/users/page.tsx:158-163 | the badge reads "Verified" iff `verified` is true, and "Pending" when it is false or missing |
| UsersPage.VerifiedBadgeColour | app/dashboard/users/page.tsx:158-161 | the badge is green iff `verified` is true, yellow otherwise |
| UsersPage.BadgeColourMatchesText | app/dashboard/users/page.tsx:158-163 | the badge's colour and text agree: green iff it reads "Verified", yellow iff it reads "Pending" |
| KnowledgePage.FilteredArticles | app/dashboard/knowledge/page.tsx:49-54 | the shown articles are an order-preserving sub-sequence of the fetched ones; an article is shown iff the search matches |
| KnowledgePage.SearchFacts | app/dashboard/knowledge/page.tsx:49-54 | content never affects the match; a missing hazard type contributes nothing; the empty query keeps exactly the articles with a title, category or hazard type; the query's case is irrelevant |
| KnowledgePage.Preview | app/dashboard/knowledge/page.tsx:139 | the preview is the first min(150, length) characters of the content followed by "...", also when the content is shorter |
| KnowledgePage.CardPreview | app/dashboard/knowledge/page.tsx:139 | a card's preview is the preview of its content, the first min(150, length) characters followed by "..."; an article without content has none, because `substring` throws |
| KnowledgePage.Previews | app/dashboard/knowledge/page.tsx:115-139 | the cards render iff every shown article has content, and then each card shows its own article's preview, in order |
| KnowledgePage.PageFailsIffShownWithoutContent | app/dashboard/knowledge/page.tsx:115-139 | the page render fails exactly when the search keeps some article without content; otherwise there is one preview per shown article |
| KnowledgePage.PreviewDeterminesPrefix | app/dashboard/knowledge/page.tsx:139 | equal previews mean equal contents when both fit in 150 characters, and equal first 150 characters otherwise |
| KnowledgePage.Badges | app/dashboard/knowledge/page.tsx:125-134 | one badge per non-empty category or hazard type, category first; no empty badge |
| Permissions.ReadEntries | scripts/setup-permissions.js:104-112 | read(any) iff "any" is listed; read(users) iff "users" is listed without "any"; read(label admin) iff "label:admin" is listed; in that order |
| Permissions.WriteEntries | scripts/setup-permissions.js:114-136 | for create, update and delete: a users entry iff "users" is listed, then an admin-label entry iff "label:admin" is listed; never `any` |
| Permissions.BuildPermissions | scripts/setup-permissions.js:101-136 | at most 8 entries, in strictly increasing rank: read, create, update, delete, with the any/users entry before the label entry |
| Permissions.GrantsOfAction | scripts/setup-permissions.js:101-136 | an entry is in the collection's list iff the entries built for its own action contain it |
| Permissions.BuildPermissionsGrants | scripts/setup-permissions.js:104-136 | which entries appear for each action, both directions, including `any` precedence for read and no `any` for writes; only the three recognised roles are granted |
| Permissions.UnknownRolesIgnored | scripts/setup-permissions.js:104-136 | two role tables that agree on the three recognised strings build the same list: other strings are ignored |
| Permissions.KnowledgeBaseAdminOnly | scripts/setup-permissions.js:55-60 | the knowledge base gets read(any) and admin-only create, update and delete |
| Permissions.DeleteAdminOnly | scripts/setup-permissions.js:25-72 | users, reports, chats, messages and login history grant delete to admins and not to signed-in users |
| Permissions.PublicReadPrecedence | scripts/setup-permissions.js:105-109 | users, reports and knowledge base get read(any) and no read(users) |
| Permissions.ApplyTable | scripts/setup-permissions.js:97-155 | for any entry builder: each row, in table order, updates its collection iff it exists and the update does not fail; a failure does not stop later rows; the store's key set is unchanged; failing or unnamed collections keep their settings |
| Permissions.SetupPermissions | scripts/setup-permissions.js:97-155 | each collection, in table order, is updated iff it exists and its update does not fail; an updated one gets its built entries with document security off and enabled; a failure does not stop later collections; no other collection changes |
| Permissions.TableIdsDistinct | scripts/setup-permissions.js:24-73 | the table has eight rows with distinct collection ids |
| AddPlatform.Decimal | scripts/add-platform.js:61 | the status renders as a non-empty string of decimal digits without a leading zero |
| AddPlatform.DecimalRoundTrip | scripts/add-platform.js:61 | reading the rendered digits back yields the status code |
| AddPlatform.DecimalInjective | scripts/add-platform.js:61 | different status codes render differently |
| AddPlatform.ErrorMessage | scripts/add-platform.js:61-69 | a transport error keeps its own text; a parse failure ends with the raw body; an HTTP error starts with its reason and ends with ")" |
| AddPlatform.MakeRequest | scripts/add-platform.js:55-66 | resolves iff the body parses and the status is in [200, 300), with the parsed body; a non-2xx object body rejects with its reason and status; an unparseable body, or a non-2xx `null` body, rejects as unparseable; a transport error is passed on |
| AddPlatform.HttpErrorMessage | scripts/add-platform.js:61 | the rejection text is the server message, or "Request failed" when absent or empty, then " (status)", and the status can be read back from it |
| AddPlatform.FindExisting | scripts/add-platform.js:88-90 | nothing is found iff no entry has our hostname or name; otherwise the first such entry is returned |
| AddPlatform.CheckExisting | scripts/add-platform.js:82-106 | succeeds iff the listing resolves with an object; a missing list counts as empty; returns an entry of ours iff the list has one |
| AddPlatform.RunScript | scripts/add-platform.js:111-174 | a POST of type web with the fixed name and hostname is sent iff the check succeeded and found nothing; the outcome is "already configured" iff it found one; "added" iff the POST resolves with an object; a rejection, or a `null` creation body whose `name` cannot be read, ends with exit status 1 |
| AddPlatform.RerunIsIdempotent | scripts/add-platform.js:145-155 | against a reachable server, a second run finds the platform, posts nothing and leaves the server as the first run left it |
| MissingAttributes.CreateAttribute | scripts/add-missing-attributes.js:62-87 | a 409 resolves with no attribute; any other error is rethrown with its code; success returns the attribute |
| MissingAttributes.Missing | scripts/add-missing-attributes.js:115-118 | the keys to create are exactly the configured keys not already present |
| MissingAttributes.MissingIsFilter | scripts/add-missing-attributes.js:112-126 | the keys to create are the order-preserving filter of the configured keys by absence |
| MissingAttributes.ProcessAttributes | scripts/add-missing-attributes.js:112-126 | present keys are never sent; requests go out in configured order; the loop completes iff no key to create meets a non-409 error, and then created + skipped is the number configured, 409s counted as created; an abort stops at the first fatal key |
| MissingAttributes.RunScript | scripts/add-missing-attributes.js:102-142 | exit 0 iff the listing succeeds and no key to create meets a non-409 error; then created + skipped is two; a failed listing exits 1 with nothing attempted |
| MissingAttributes.ConfiguredAttributes | scripts/add-missing-attributes.js:45-60 | isApproved then isBlocked, each boolean, not required, default false |
| CreateAdmin.CreateAdminUser | scripts/create-admin.js:42-99 | a password under 8 characters stops before any call; otherwise create comes first; once a user is created the second call sets its labels to exactly ["admin"]; verification comes only after labelling succeeded; success iff all three succeed, and then the calls are exactly create, label ["admin"], verify; a failure reports the code of the reply that failed, with guidance iff that code is 409 |
| CreateAdmin.ConflictAddsNoLabel | scripts/create-admin.js:86-96 | a duplicate e-mail ends the script with guidance and no label call |
| CreateAdmin.CreatedAdminPassesGate | scripts/create-admin.js:58-76 | an account whose labels are those written by a full run's label call passes the admin gate, and signing in with the prompted credentials over a working network succeeds and opens the dashboard, whatever other accounts the directory holds |

## Left out

- Rendering, toasts, console output and date formatting are UI only. Navigation is recorded as a target value, not performed.
- The BaaS SDK calls become abstract operations with a success/failure switch: `account.*`, `databases.*`, `users.*` and `sdk.Permission`/`sdk.Role`. Server-side permission enforcement is not modelled.
- The model's identity provider lets a new session replace an active one. The real provider's rules for concurrent sessions belong to the provider, not to this code.
- `Promise.all` in the statistics fetch is modelled as one all-or-nothing result. Its concurrency is not modelled.
- The `setTimeout` pause between attribute creations is timing only and is not modelled.
- In the platform script, the `https` streaming and `JSON.parse` are I/O. Each reply is its status, raw text and parse result.
- A JSON `null` from a successful platform listing makes reading `platforms` throw, and one from a successful creation makes reading `name` throw. Both are modelled as `NullResponse`, whose message text stands in for the runtime's `TypeError` text.
- Reading `APPWRITE_API_KEY` from the environment, and exiting when it is unset, is environment I/O. The same goes for the readline prompts of the admin script: name, e-mail and password are parameters.
- The reports, users and knowledge pages each fetch one list (newest first, limit 100) and replace the shown list, keeping it on failure. This is data loading, not modelled. Only the filters over the fetched list are.
- `app/login/page.tsx` only wraps `login` in a busy flag. `app/api/users/verify-email/route.ts` wraps one SDK call. `scripts/check-permissions.js` only prints. `lib/appwrite.ts` is client configuration; its collection ids reappear as the permission table's keys.
- Text.Lower: lowers ASCII letters only, not Unicode case folding as `toLowerCase` does.
- CreateAdmin.CreateAdminUser: counts the password length in characters, not in UTF-16 code units as JavaScript's `length` does.
- KnowledgePage.Preview: takes 150 characters, not 150 UTF-16 code units as `substring` does.

=== FILE: add_platform.dfy ===
/** The platform-registration script: classify each HTTP reply, look for an
    already-registered platform, and add the web platform only when none
    matches, so that running the script again changes nothing. */
module AddPlatform {
  import opened Wrappers

  const PlatformName := "EWER Admin Panel"
  const PlatformHostname := "cradi-mobile-admin.vercel.app"

  /** A platform entry as the server lists it; fields may be missing. */
  datatype Platform = Platform(id: string, kind: Option<string>, name: Option<string>, hostname: Option<string>)

  /** What `JSON.parse` can yield that the script reads: `null`, or an object
      with an optional `message` and an optional `platforms` list. */
  datatype Json = JsonNull | JsonObject(message: Option<string>, platforms: Option<seq<Platform>>)

  /** One HTTP exchange: a transport error, or a status, the raw body and
      the result of parsing it (`None` when `JSON.parse` throws). */
  datatype Reply = NetworkFailure(reason: string) | Reply(status: nat, raw: string, parsed: Option<Json>)

  /** Why a request was rejected. */
  datatype RequestError =
    | TransportError(reason: string)
    | Unparseable(raw: string)
    | HttpError(reason: string, status: nat)
    | NullResponse

  // ---- decimal rendering of status codes ----

  function Digit(d: nat): char
    requires d < 10
  {
    ('0' as int + d) as char
  }

  predicate IsDigit(c: char) {
    '0' <= c <= '9'
  }

  /** The decimal digits of `n`, as a template literal renders it. */
  function Decimal(n: nat): (s: string)
    ensures |s| >= 1
    ensures forall i :: 0 <= i < |s| ==> IsDigit(s[i])
    ensures n >= 10 ==> s[0] != '0'
    decreases n
  {
    if n < 10 then [Digit(n)] else Decimal(n / 10) + [Digit(n % 10)]
  }

  /** The number a string of decimal digits denotes. */
  function DigitsValue(s: string): nat
    requires forall i :: 0 <= i < |s| ==> IsDigit(s[i])
    decreases |s|
  {
    if |s| == 0 then 0
    else
      assert IsDigit(s[|s| - 1]);
      DigitsValue(s[..|s| - 1]) * 10 + (s[|s| - 1] as int - '0' as int)
  }

  /** Reading the rendered digits back gives the status code. */
  lemma {:induction false} DecimalRoundTrip(n: nat)
    ensures DigitsValue(Decimal(n)) == n
    decreases n
  {
    if n >= 10 {
      DecimalRoundTrip(n / 10);
      var s := Decimal(n);
      assert s[..|s| - 1] == Decimal(n / 10);
    }
  }

  /** Different status codes render differently. */
  lemma DecimalInjective(m: nat, n: nat)
    requires Decimal(m) == Decimal(n)
    ensures m == n
  {
    DecimalRoundTrip(m);
    DecimalRoundTrip(n);
  }

  // ---- makeRequest ----

  /** `response.message || 'Request failed'`: an absent or empty message
      falls back to the generic text. */
  function Reason(message: Option<string>): string {
    if message.Some? && message.value != "" then message.value else "Request failed"
  }

  /** The text of the rejection `Error`. */
  function ErrorMessage(e: RequestError): (m: string)
    ensures e.TransportError? ==> m == e.reason
    ensures e.Unparseable? ==> |e.raw| <= |m| && m[|m| - |e.raw|..] == e.raw
    ensures e.HttpError? ==> e.reason <= m && |m| > |e.reason| && m[|m| - 1] == ')'
  {
    match e
    case TransportError(reason) => reason
    case Unparseable(raw) => "Failed to parse response: " + raw
    case HttpError(reason, status) => reason + " (" + Decimal(status) + ")"
    case NullResponse => "Cannot read properties of null"
  }

  /** `makeRequest`: resolves with the parsed body exactly when the body
      parses and the status is in [200, 300); a non-2xx object body rejects
      with its message and status; a body that does not parse, or a non-2xx
      `null` whose message cannot be read, rejects as unparseable. */
  function MakeRequest(reply: Reply): (r: Result<Json, RequestError>)
    ensures r.Success? <==> reply.Reply? && reply.parsed.Some? && 200 <= reply.status < 300
    ensures r.Success? ==> r.value == reply.parsed.value
    ensures reply.Reply? && reply.parsed.Some? && reply.parsed.value.JsonObject? && !(200 <= reply.status < 300) ==>
              r == Failure(HttpError(Reason(reply.parsed.value.message), reply.status))
    ensures reply.Reply? && reply.parsed.None? ==> r == Failure(Unparseable(reply.raw))
    ensures reply.Reply? && reply.parsed == Some(JsonNull) && !(200 <= reply.status < 300) ==>
              r == Failure(Unparseable(reply.raw))
    ensures reply.NetworkFailure? ==> r == Failure(TransportError(reply.reason))
  {
    match reply
    case NetworkFailure(reason) => Failure(TransportError(reason))
    case Reply(status, raw, parsed) =>
      if parsed.None? then Failure(Unparseable(raw))
      else if 200 <= status < 300 then Success(parsed.value)
      else
        match parsed.value
        case JsonNull => Failure(Unparseable(raw))
        case JsonObject(message, _) => Failure(HttpError(Reason(message), status))
  }

  /** A non-2xx rejection reads "<server message or 'Request failed'>
      (<status>)", and the status can be recovered from its digits. */
  lemma HttpErrorMessage(message: Option<string>, status: nat)
    ensures
      var m := ErrorMessage(HttpError(Reason(message), status));
      && m == Reason(message) + " (" + Decimal(status) + ")"
      && m[|m| - 1] == ')'
      && DigitsValue(m[|Reason(message)| + 2..|m| - 1]) == status
    ensures Reason(message) == "Request failed" <==>
              message.None? || message.value == "" || message.value == "Request failed"
  {
    var m := ErrorMessage(HttpError(Reason(message), status));
    assert m[|Reason(message)| + 2..|m| - 1] == Decimal(status);
    DecimalRoundTrip(status);
  }

  // ---- checkExistingPlatforms ----

  /** An entry is ours when its hostname or its name is the configured one. */
  predicate IsOurs(p: Platform) {
    p.hostname == Some(PlatformHostname) || p.name == Some(PlatformName)
  }

  /** `platforms.find(...)`: the first entry that is ours. */
  function FindExisting(ps: seq<Platform>): (r: Option<Platform>)
    ensures r.None? <==> forall i :: 0 <= i < |ps| ==> !IsOurs(ps[i])
    ensures r.Some? ==> exists i :: 0 <= i < |ps| && ps[i] == r.value && IsOurs(ps[i])
                                    && forall j :: 0 <= j < i ==> !IsOurs(ps[j])
    decreases |ps|
  {
    if |ps| == 0 then None
    else if IsOurs(ps[0]) then Some(ps[0])
    else
      var r := FindExisting(ps[1..]);
      if r.Some? then
        ghost var i :| 0 <= i < |ps| - 1 && ps[1..][i] == r.value && IsOurs(ps[1..][i])
                        && forall j :: 0 <= j < i ==> !IsOurs(ps[1..][j]);
        assert ps[i + 1] == r.value && forall j :: 0 <= j < i + 1 ==> !IsOurs(ps[j]) by {
          forall j | 0 <= j < i + 1 ensures !IsOurs(ps[j]) {
            if j > 0 {
              assert ps[j] == ps[1..][j - 1];
            }
          }
        }
        r
      else
        assert forall i :: 0 <= i < |ps| - 1 ==> !IsOurs(ps[1..][i]);
        r
  }

  /** `checkExistingPlatforms`: list the platforms (a missing list counts as
      empty) and return the first that is ours; a failed listing is
      rethrown. */
  function CheckExisting(reply: Reply): (r: Result<Option<Platform>, RequestError>)
    ensures r.Success? <==> MakeRequest(reply).Success? && MakeRequest(reply).value.JsonObject?
    ensures r.Success? && MakeRequest(reply).value.platforms.None? ==> r.value.None?
    ensures r.Success? ==> (r.value.None? <==>
              forall p :: p in MakeRequest(reply).value.platforms.GetOr([]) ==> !IsOurs(p))
    ensures r.Success? && r.value.Some? ==> IsOurs(r.value.value) && r.value.value in MakeRequest(reply).value.platforms.value
  {
    var body :- MakeRequest(reply);
    match body
    case JsonNull => Failure(NullResponse)
    case JsonObject(_, platforms) => Success(FindExisting(platforms.GetOr([])))
  }

  // ---- main ----

  /** The body of the POST that registers the platform. */
  datatype PlatformRequest = PlatformRequest(kind: string, name: string, hostname: string)

  const NewPlatform := PlatformRequest("web", PlatformName, PlatformHostname)

  datatype ScriptOutcome = AlreadyConfigured(existing: Platform) | Added | ScriptFailed(message: string)

  /** The script's run: its outcome and the POST it issued, if any. */
  datatype Run = Run(outcome: ScriptOutcome, posted: Option<PlatformRequest>)

  /** `main`: check, and add only when nothing matches. Any rejection ends
      the script with status 1, and so does a creation reply whose body is
      `null`, since reading its `name` throws. */
  function RunScript(listReply: Reply, createReply: Reply): (r: Run)
    ensures r.posted.Some? <==> CheckExisting(listReply) == Success(None)
    ensures r.posted.Some? ==> r.posted.value == NewPlatform
    ensures r.outcome.AlreadyConfigured? <==> CheckExisting(listReply).Success? && CheckExisting(listReply).value.Some?
    ensures r.outcome.AlreadyConfigured? ==> IsOurs(r.outcome.existing)
    ensures r.outcome.Added? <==>
              r.posted.Some? && MakeRequest(createReply).Success? && MakeRequest(createReply).value.JsonObject?
    ensures ExitCode(r) == 1 <==> r.outcome.ScriptFailed?
    ensures r.posted.Some? && !r.outcome.Added? ==> r.outcome.ScriptFailed?
  {
    match CheckExisting(listReply)
    case Failure(e) => Run(ScriptFailed(ErrorMessage(e)), None)
    case Success(Some(p)) => Run(AlreadyConfigured(p), None)
    case Success(None) =>
      match MakeRequest(createReply)
      case Failure(e) => Run(ScriptFailed(ErrorMessage(e)), Some(NewPlatform))
      case Success(JsonNull) => Run(ScriptFailed(ErrorMessage(NullResponse)), Some(NewPlatform))
      case Success(JsonObject(_, _)) => Run(Added, Some(NewPlatform))
  }

  function ExitCode(r: Run): int {
    if r.outcome.ScriptFailed? then 1 else 0
  }

  // ---- re-running against a server ----

  /** A server that lists its platforms and appends a created one. */
  datatype Server = Server(platforms: seq<Platform>, nextId: nat)

  function ServeList(s: Server): Reply {
    Reply(200, "", Some(JsonObject(None, Some(s.platforms))))
  }

  function Created(s: Server, req: PlatformRequest): Platform {
    Platform(Decimal(s.nextId), Some(req.kind), Some(req.name), Some(req.hostname))
  }

  function ServeCreate(s: Server, req: PlatformRequest): Server {
    Server(s.platforms + [Created(s, req)], s.nextId + 1)
  }

  /** One run of the script against the server, and the server afterwards. */
  function RunAgainst(s: Server): (ScriptOutcome, Server) {
    var created := ServeCreate(s, NewPlatform);
    var run := RunScript(ServeList(s), Reply(201, "", Some(JsonObject(None, None))));
    if run.posted.Some? then (run.outcome, created) else (run.outcome, s)
  }

  /** Against a reachable server the first run either finds or adds the
      platform; a second run finds it and issues no POST, leaving the server
      as the first run left it. */
  lemma RerunIsIdempotent(s: Server)
    ensures
      var (o1, s1) := RunAgainst(s);
      var (o2, s2) := RunAgainst(s1);
      && (o1.AlreadyConfigured? || o1.Added?)
      && o2.AlreadyConfigured?
      && s2 == s1
      && |s1.platforms| <= |s.platforms| + 1
  {
    var (o1, s1) := RunAgainst(s);
    if o1.Added? {
      var p := Created(s, NewPlatform);
      assert s1.platforms[|s1.platforms| - 1] == p && IsOurs(p);
    }
  }
}

=== FILE: auth_gate.dfy ===
/** The admin gate of the dashboard: restoring a session on page load,
    signing in and signing out, over an identity provider whose every round
    trip may fail. The one authorisation signal is the `admin` label of the
    account behind the current session. */
module AuthGate {
  import opened Wrappers

  /** An identity-provider account; `labels` may be missing altogether. */
  datatype Account = Account(id: string, email: string, name: string, labels: Option<seq<string>>)

  /** `currentUser.labels && currentUser.labels.includes('admin')`: a missing
      label list counts as "not an admin". */
  predicate IsAdmin(a: Account) {
    a.labels.Some? && "admin" in a.labels.value
  }

  /** A registered credential and the account it signs in to. */
  datatype Registered = Registered(password: string, account: Account)

  /** The identity provider: registered e-mail addresses and the account of
      the current session, if there is one. */
  datatype Provider = Provider(directory: map<string, Registered>, session: Option<Account>)

  /** Whether each kind of round trip to the provider gets through during one
      operation (`false` stands for a network or server failure). */
  datatype Net = Net(createOk: bool, getOk: bool, deleteOk: bool)

  datatype ProviderError = NetworkError | InvalidCredentials | NoSession

  /** What `login` throws: its own authorisation error or a provider error. */
  datatype LoginError = AdminAccessRequired | Rethrown(cause: ProviderError)

  /** Navigation targets, recorded rather than performed. */
  datatype Route = DashboardRoute | LoginRoute

  /** The context value: the signed-in admin, the restore-in-progress flag,
      and the last navigation the gate asked for. */
  datatype AuthState = AuthState(user: Option<Account>, loading: bool, navigatedTo: Option<Route>)

  /** State at mount: nobody signed in, restore pending. */
  const Initial := AuthState(None, true, None)

  /** An operation's effect on the context and on the provider. */
  datatype Step = Step(state: AuthState, provider: Provider)

  /** The result of `login`: new context and provider, and the error it
      throws, if any. */
  datatype LoginStep = LoginStep(state: AuthState, provider: Provider, thrown: Option<LoginError>)

  /** The gate's invariant: a signed-in user always carries the admin label. */
  predicate Gated(s: AuthState) {
    s.user.Some? ==> IsAdmin(s.user.value)
  }

  /** The e-mail/password pair is registered with the provider. */
  predicate Authenticates(p: Provider, email: string, password: string) {
    email in p.directory && p.directory[email].password == password
  }

  // ---- the provider's three calls ----

  /** `account.get()`. */
  function GetAccount(p: Provider, ok: bool): Result<Account, ProviderError> {
    if !ok then Failure(NetworkError)
    else if p.session.None? then Failure(NoSession)
    else Success(p.session.value)
  }

  /** `account.deleteSession('current')`; there must be a session to delete. */
  function DeleteSession(p: Provider, ok: bool): Result<Provider, ProviderError> {
    if !ok then Failure(NetworkError)
    else if p.session.None? then Failure(NoSession)
    else Success(p.(session := None))
  }

  /** `account.createEmailPasswordSession(email, password)`. */
  function CreateSession(p: Provider, email: string, password: string, ok: bool): Result<Provider, ProviderError> {
    if !ok then Failure(NetworkError)
    else if !Authenticates(p, email, password) then Failure(InvalidCredentials)
    else Success(p.(session := Some(p.directory[email].account)))
  }

  // ---- the gate's three operations ----

  /** `checkAuth`: restore the signed-in admin from the current session. A
      session of a non-admin is deleted; every failure is swallowed and leaves
      nobody signed in; `loading` always ends false. */
  function CheckAuth(s: AuthState, p: Provider, net: Net): (r: Step)
    ensures !r.state.loading
    ensures r.state.user.Some? <==> net.getOk && p.session.Some? && IsAdmin(p.session.value)
    ensures r.state.user.Some? ==> r.state.user == p.session
    ensures r.state.navigatedTo == s.navigatedTo
    ensures r.provider.directory == p.directory
    ensures net.getOk && p.session.Some? && !IsAdmin(p.session.value) ==>
              (r.provider.session.None? <==> net.deleteOk)
    ensures !(net.getOk && p.session.Some? && !IsAdmin(p.session.value)) ==> r.provider == p
  {
    match GetAccount(p, net.getOk)
    case Failure(_) => Step(s.(user := None, loading := false), p)
    case Success(a) =>
      if IsAdmin(a) then Step(s.(user := Some(a), loading := false), p)
      else
        match DeleteSession(p, net.deleteOk)
        case Success(p') => Step(s.(user := None, loading := false), p')
        case Failure(_) => Step(s.(user := None, loading := false), p)
  }

  /** `login(email, password)`: create a session, fetch its account, and keep
      it only when the account is an admin; otherwise delete the session just
      created and throw. Whatever is thrown leaves the context untouched. */
  function Login(s: AuthState, p: Provider, email: string, password: string, net: Net): (r: LoginStep)
    ensures r.thrown.None? <==>
              net.createOk && Authenticates(p, email, password) && net.getOk
              && IsAdmin(p.directory[email].account)
    ensures r.thrown.None? ==>
              && r.state == s.(user := Some(p.directory[email].account), navigatedTo := Some(DashboardRoute))
              && r.provider.session == Some(p.directory[email].account)
    ensures r.thrown.Some? ==> r.state == s
    ensures r.thrown == Some(AdminAccessRequired) <==>
              net.createOk && Authenticates(p, email, password) && net.getOk
              && !IsAdmin(p.directory[email].account) && net.deleteOk
    ensures r.thrown == Some(AdminAccessRequired) ==> r.provider == p.(session := None)
    ensures !(net.createOk && Authenticates(p, email, password)) ==>
              r.provider == p && r.thrown.Some? && r.thrown.value.Rethrown?
    ensures r.provider.directory == p.directory
  {
    match CreateSession(p, email, password, net.createOk)
    case Failure(e) => LoginStep(s, p, Some(Rethrown(e)))
    case Success(p1) =>
      match GetAccount(p1, net.getOk)
      case Failure(e) => LoginStep(s, p1, Some(Rethrown(e)))
      case Success(a) =>
        if !IsAdmin(a) then
          match DeleteSession(p1, net.deleteOk)
          case Success(p2) => LoginStep(s, p2, Some(AdminAccessRequired))
          case Failure(e) => LoginStep(s, p1, Some(Rethrown(e)))
        else
          LoginStep(s.(user := Some(a), navigatedTo := Some(DashboardRoute)), p1, None)
  }

  /** `logout`: delete the current session; only when that succeeds is the
      user cleared and the login page requested. A failed deletion is
      swallowed and changes nothing. */
  function Logout(s: AuthState, p: Provider, net: Net): (r: Step)
    ensures net.deleteOk && p.session.Some? ==>
              && r.state == s.(user := None, navigatedTo := Some(LoginRoute))
              && r.provider == p.(session := None)
    ensures !(net.deleteOk && p.session.Some?) ==> r == Step(s, p)
  {
    match DeleteSession(p, net.deleteOk)
    case Success(p') => Step(s.(user := None, navigatedTo := Some(LoginRoute)), p')
    case Failure(_) => Step(s, p)
  }

  // ---- the gate invariant over any sequence of operations ----

  /** One user- or mount-triggered operation with the network it meets. */
  datatype Event = Restore(net: Net) | SignIn(email: string, password: string, net: Net) | SignOut(net: Net)

  function Apply(s: AuthState, p: Provider, e: Event): Step {
    match e
    case Restore(net) => CheckAuth(s, p, net)
    case SignIn(email, password, net) =>
      var r := Login(s, p, email, password, net);
      Step(r.state, r.provider)
    case SignOut(net) => Logout(s, p, net)
  }

  /** The context after a sequence of operations, in order. */
  function Run(s: AuthState, p: Provider, events: seq<Event>): Step
    decreases |events|
  {
    if |events| == 0 then Step(s, p)
    else
      var r := Apply(s, p, events[0]);
      Run(r.state, r.provider, events[1..])
  }

  /** Each operation keeps the gate invariant; `checkAuth` establishes it
      from any state. */
  lemma ApplyKeepsGated(s: AuthState, p: Provider, e: Event)
    requires Gated(s) || e.Restore?
    ensures Gated(Apply(s, p, e).state)
  {
  }

  /** From mount onwards, whatever the user does and whatever the network
      does, the context never holds a non-admin user. */
  lemma {:induction false} RunKeepsGated(s: AuthState, p: Provider, events: seq<Event>)
    requires Gated(s)
    ensures Gated(Run(s, p, events).state)
    decreases |events|
  {
    if |events| > 0 {
      ApplyKeepsGated(s, p, events[0]);
      var r := Apply(s, p, events[0]);
      RunKeepsGated(r.state, r.provider, events[1..]);
    }
  }

  /** From mount onwards the context never holds a non-admin user. */
  lemma FromMountGated(p: Provider, events: seq<Event>)
    ensures Gated(Run(Initial, p, events).state)
  {
    RunKeepsGated(Initial, p, events);
  }

  /** The provider's directory is never changed by the gate. */
  lemma {:induction false} RunKeepsDirectory(s: AuthState, p: Provider, events: seq<Event>)
    ensures Run(s, p, events).provider.directory == p.directory
    decreases |events|
  {
    if |events| > 0 {
      var r := Apply(s, p, events[0]);
      RunKeepsDirectory(r.state, r.provider, events[1..]);
    }
  }

  // ---- revocation and sign-out scenarios ----

  /** A non-admin session seen by `checkAuth` is gone afterwards when the
      deletion got through: fetching the account then fails, whatever the
      network does. */
  lemma CheckAuthRevokesNonAdmin(s: AuthState, p: Provider, net: Net, later: bool)
    requires net.getOk && net.deleteOk && p.session.Some? && !IsAdmin(p.session.value)
    ensures GetAccount(CheckAuth(s, p, net).provider, later).Failure?
    ensures CheckAuth(s, p, net).state.user.None?
  {
  }

  /** A successful `login` followed by a successful `logout` leaves no
      session, so the next restore signs nobody in. */
  lemma LoginLogoutRestore(s: AuthState, p: Provider, email: string, password: string, n1: Net, n2: Net, n3: Net)
    requires Login(s, p, email, password, n1).thrown.None?
    requires n2.deleteOk
    ensures
      var l := Login(s, p, email, password, n1);
      var o := Logout(l.state, l.provider, n2);
      && o.state.user.None?
      && o.provider.session.None?
      && CheckAuth(o.state, o.provider, n3).state.user.None?
  {
  }

  /** Signing out twice: the second deletion fails for want of a session,
      which is swallowed, and nobody stays signed in. */
  lemma LogoutTwice(s: AuthState, p: Provider, n1: Net, n2: Net)
    requires n1.deleteOk && p.session.Some?
    ensures
      var o1 := Logout(s, p, n1);
      var o2 := Logout(o1.state, o1.provider, n2);
      o2 == o1 && o2.state.user.None?
  {
  }

  /** As written, a `logout` whose deletion fails keeps the signed-in user,
      even when the provider has no session any more. */
  lemma LogoutFailureKeepsUser(s: AuthState, p: Provider, net: Net)
    requires s.user.Some?
    requires p.session.None? || !net.deleteOk
    ensures Logout(s, p, net).state.user == s.user
  {
  }

  /** A `login` whose account fetch fails after the session was created
      throws but leaves that new session alive, whether or not its account
      is an admin. */
  lemma LoginFetchFailureLeavesSession(s: AuthState, p: Provider, email: string, password: string, net: Net)
    requires net.createOk && Authenticates(p, email, password) && !net.getOk
    ensures Login(s, p, email, password, net).provider.session == Some(p.directory[email].account)
    ensures Login(s, p, email, password, net).thrown == Some(Rethrown(NetworkError))
  {
  }

  /** A `login` whose account is not an admin and whose deletion of the new
      session fails rethrows the deletion's error, not "Admin access
      required", and leaves the new session alive. */
  lemma LoginDeleteFailureLeavesSession(s: AuthState, p: Provider, email: string, password: string, net: Net)
    requires net.createOk && Authenticates(p, email, password) && net.getOk && !net.deleteOk
    requires !IsAdmin(p.directory[email].account)
    ensures Login(s, p, email, password, net).provider.session == Some(p.directory[email].account)
    ensures Login(s, p, email, password, net).thrown == Some(Rethrown(NetworkError))
    ensures Login(s, p, email, password, net).state == s
  {
  }
}

=== FILE: create_admin.dfy ===
/** The admin-creation script: reject a short password, then create the
    user, label it `admin`, and mark its e-mail verified, each step only
    after the previous one succeeded. */
module CreateAdmin {
  import opened Wrappers
  import AuthGate

  const MinPasswordLength := 8

  /** The HTTP status of a duplicate-user conflict. */
  const Conflict := 409

  /** The calls the script makes on the users service, in order. */
  datatype Call =
    | CreateUser(email: string, password: string, name: string)
    | UpdateLabels(userId: string, labels: seq<string>)
    | VerifyEmail(userId: string, verified: bool)

  /** The service's answers: an id for the created user, or an error code. */
  datatype CreateReply = UserCreated(userId: string) | CreateFailed(code: int)

  /** How the script ends. On an error it prints the message, plus the
      instructions for labelling an existing user when the error is a
      conflict; the exit status is 0 in both of those cases. */
  datatype Outcome =
    | PasswordTooShort
    | AdminCreated(userId: string)
    | StepFailed(code: int, showsExistingUserGuidance: bool)

  datatype Run = Run(outcome: Outcome, calls: seq<Call>)

  /** `createAdminUser` with the prompted name, e-mail and password and the
      service's answer to each call. `labelReply` and `verifyReply` are the
      error codes of the second and third call, `None` when they succeed. */
  function CreateAdminUser(name: string, email: string, password: string,
                           create: CreateReply, labelReply: Option<int>, verifyReply: Option<int>): (r: Run)
    ensures r.outcome == PasswordTooShort <==> |password| < MinPasswordLength
    ensures r.outcome == PasswordTooShort ==> r.calls == []
    ensures r.outcome != PasswordTooShort ==> |r.calls| >= 1 && r.calls[0] == CreateUser(email, password, name)
    ensures forall i :: 0 <= i < |r.calls| && r.calls[i].UpdateLabels? ==>
              i == 1 && r.calls[i].labels == ["admin"] && create.UserCreated?
              && r.calls[i].userId == create.userId
    ensures forall i :: 0 <= i < |r.calls| && r.calls[i].VerifyEmail? ==>
              i == 2 && create.UserCreated? && labelReply.None? && r.calls[i] == VerifyEmail(create.userId, true)
    ensures r.outcome.AdminCreated? <==>
              |password| >= MinPasswordLength && create.UserCreated? && labelReply.None? && verifyReply.None?
    ensures r.outcome.AdminCreated? ==> |r.calls| == 3 && r.outcome.userId == create.userId
    ensures r.outcome.AdminCreated? ==>
              r.calls == [CreateUser(email, password, name), UpdateLabels(create.userId, ["admin"]),
                          VerifyEmail(create.userId, true)]
    ensures |password| >= MinPasswordLength && create.UserCreated? ==>
              |r.calls| >= 2 && r.calls[1] == UpdateLabels(create.userId, ["admin"])
    ensures r.outcome.StepFailed? ==>
              r.outcome.code == (if create.CreateFailed? then create.code
                                 else if labelReply.Some? then labelReply.value
                                 else verifyReply.value)
    ensures r.outcome.StepFailed? ==>
              (r.outcome.showsExistingUserGuidance <==> r.outcome.code == Conflict)
    ensures |r.calls| <= 3
  {
    if |password| < MinPasswordLength then Run(PasswordTooShort, [])
    else
      var c1 := CreateUser(email, password, name);
      match create
      case CreateFailed(code) => Run(StepFailed(code, code == Conflict), [c1])
      case UserCreated(id) =>
        var c2 := UpdateLabels(id, ["admin"]);
        if labelReply.Some? then Run(StepFailed(labelReply.value, labelReply.value == Conflict), [c1, c2])
        else
          var c3 := VerifyEmail(id, true);
          if verifyReply.Some? then Run(StepFailed(verifyReply.value, verifyReply.value == Conflict), [c1, c2, c3])
          else Run(AdminCreated(id), [c1, c2, c3])
  }

  /** A duplicate e-mail stops the script after the creation call: only
      guidance is printed and no label is written. */
  lemma ConflictAddsNoLabel(name: string, email: string, password: string, l: Option<int>, v: Option<int>)
    requires |password| >= MinPasswordLength
    ensures
      var r := CreateAdminUser(name, email, password, CreateFailed(Conflict), l, v);
      && r.outcome == StepFailed(Conflict, true)
      && forall c :: c in r.calls ==> !c.UpdateLabels?
  {
  }

  /** The account a full run leaves behind, as the identity provider sees
      it: the labels are those the run's label call wrote. */
  function CreatedAccount(userId: string, email: string, name: string, labels: seq<string>): AuthGate.Account {
    AuthGate.Account(userId, email, name, Some(labels))
  }

  /** The label the script writes is exactly what the admin gate checks: an
      account carrying the labels of a full run's label call passes the
      gate, and signing in with the prompted credentials over a working
      network succeeds and opens the dashboard. */
  lemma CreatedAdminPassesGate(name: string, email: string, password: string, create: CreateReply,
                               s: AuthGate.AuthState, p: AuthGate.Provider)
    requires CreateAdminUser(name, email, password, create, None, None).outcome.AdminCreated?
    requires email in p.directory
    requires p.directory[email] ==
               AuthGate.Registered(password, CreatedAccount(create.userId, email, name,
                                     CreateAdminUser(name, email, password, create, None, None).calls[1].labels))
    ensures AuthGate.IsAdmin(p.directory[email].account)
    ensures
      var l := AuthGate.Login(s, p, email, password, AuthGate.Net(true, true, true));
      && l.thrown.None?
      && l.state.user == Some(p.directory[email].account)
      && l.state.navigatedTo == Some(AuthGate.DashboardRoute)
  {
    var r := CreateAdminUser(name, email, password, create, None, None);
    assert r.calls[1].labels == ["admin"];
    assert "admin" in ["admin"];
  }
}

=== FILE: dashboard_stats.dfy ===
/** The overview page's statistics: totals reported by the store and the
    pending/resolved report counts computed over the fetched documents. */
module DashboardStats {
  import opened Wrappers
  import opened Lists
  import opened ReportsPage

  /** Exact, case-sensitive membership in the "pending" bucket. */
  predicate IsPending(r: Report) {
    r.status == Some("pending") || r.status == Some("submitted")
  }

  /** Exact, case-sensitive membership in the "resolved" bucket. */
  predicate IsResolved(r: Report) {
    r.status == Some("resolved") || r.status == Some("verified")
  }

  datatype Stats = Stats(
    totalUsers: nat,
    totalReports: nat,
    pendingReports: nat,
    resolvedReports: nat,
    emergencyContacts: nat,
    knowledgeArticles: nat)

  const InitialStats := Stats(0, 0, 0, 0, 0, 0)

  /** One `listDocuments` answer: the store's total and the documents of the
      first page. */
  datatype Listing<T> = Listing(total: nat, documents: seq<T>)

  /** The four listings fetched together; the other collections are only
      counted, so their documents are not kept. */
  datatype Fetched = Fetched(users: nat, reports: Listing<Report>, emergencyContacts: nat, knowledgeBase: nat)

  datatype FetchError = FetchError

  /** The page's statistics and loading flag after `fetchStats`. */
  datatype StatsView = StatsView(stats: Stats, loading: bool)

  /** `fetchStats`: all four listings or none; a failure keeps the previous
      statistics; loading always ends false. */
  function FetchStats(prev: Stats, fetched: Result<Fetched, FetchError>): (v: StatsView)
    ensures !v.loading
    ensures fetched.Failure? ==> v.stats == prev
    ensures fetched.Success? ==>
              var docs := fetched.value.reports.documents;
              && v.stats.totalReports == fetched.value.reports.total
              && v.stats.totalUsers == fetched.value.users
              && v.stats.emergencyContacts == fetched.value.emergencyContacts
              && v.stats.knowledgeArticles == fetched.value.knowledgeBase
              && v.stats.pendingReports == |Filter(IsPending, docs)|
              && v.stats.resolvedReports == |Filter(IsResolved, docs)|
              && v.stats.pendingReports + v.stats.resolvedReports <= |docs|
  {
    match fetched
    case Failure(_) => StatsView(prev, false)
    case Success(f) =>
      var docs := f.reports.documents;
      BucketsBounded(docs);
      StatsView(Stats(f.users, f.reports.total, CountWhere(IsPending, docs), CountWhere(IsResolved, docs),
                      f.emergencyContacts, f.knowledgeBase), false)
  }

  /** No report is in both buckets, so the two counts together never exceed
      the number of fetched documents, and each equals the length of the
      matching filter. */
  lemma BucketsBounded(docs: seq<Report>)
    ensures CountWhere(IsPending, docs) + CountWhere(IsResolved, docs) <= |docs|
    ensures CountWhere(IsPending, docs) == |Filter(IsPending, docs)|
    ensures CountWhere(IsResolved, docs) == |Filter(IsResolved, docs)|
  {
    DisjointCounts(IsPending, IsResolved, docs);
    FilterLength(IsPending, docs);
    FilterLength(IsResolved, docs);
  }

  /** Rejected, unknown, missing and differently-cased statuses are counted
      in neither bucket. */
  lemma UncountedStatuses(r: Report)
    requires r.status in {None, Some("rejected"), Some("Pending"), Some("Verified")}
    ensures !IsPending(r) && !IsResolved(r)
  {
  }

  /** Every counted report is coloured on the reports page as its bucket
      says (yellow for pending, green for resolved), but not conversely: the
      colour is case-insensitive and the count is not. */
  lemma BucketsAgreeWithColours(r: Report)
    ensures IsPending(r) ==> StatusColour(r.status) == Yellow
    ensures IsResolved(r) ==> StatusColour(r.status) == Green
    ensures r.status == Some("Pending") ==> StatusColour(r.status) == Yellow && !IsPending(r)
  {
    if IsPending(r) || IsResolved(r) {
      var w := r.status.value;
      Text.LowerFixesLower(w);
      assert Text.Lower(w) == w;
      if w == "pending" || w == "submitted" {
        assert StatusColour(r.status) == Yellow;
      } else {
        assert StatusColour(r.status) == Green;
      }
    } else if r.status == Some("Pending") {
      assert Text.Lower("Pending") == "pending" by {
        assert Text.Lower("Pending")[0] == 'p';
      }
    }
  }
}

=== FILE: knowledge_page.dfy ===
/** The knowledge-base page: its search, the article preview and the
    category/hazard badges. */
module KnowledgePage {
  import opened Wrappers
  import opened Text
  import opened Lists

  /** A knowledge article; every field the page reads may be missing. */
  datatype Article = Article(
    id: string,
    title: Option<string>,
    content: Option<string>,
    category: Option<string>,
    hazardType: Option<string>)

  /** Number of content characters the card shows before the ellipsis. */
  const PreviewLength := 150

  /** The search: folded match on title, category or hazard type. */
  predicate ArticleMatches(a: Article, query: string) {
    MatchesFolded(a.title, query) || MatchesFolded(a.category, query) || MatchesFolded(a.hazardType, query)
  }

  /** `filteredArticles`: the articles shown, in fetched order. */
  function FilteredArticles(articles: seq<Article>, query: string): (shown: seq<Article>)
    ensures IsSubsequence(shown, articles)
    ensures |shown| <= |articles|
    ensures forall a :: a in articles ==> (a in shown <==> ArticleMatches(a, query))
    ensures forall a :: a in shown ==> a in articles
  {
    FilterIsSubsequence((a: Article) => ArticleMatches(a, query), articles);
    Filter((a: Article) => ArticleMatches(a, query), articles)
  }

  /** The content is never searched, a missing hazard type never contributes
      a match, and the empty query keeps exactly the articles with at least
      one searched field. */
  lemma SearchFacts(a: Article, query: string, otherContent: Option<string>)
    ensures ArticleMatches(a.(content := otherContent), query) == ArticleMatches(a, query)
    ensures a.hazardType.None? ==> (ArticleMatches(a, query) <==> MatchesFolded(a.title, query) || MatchesFolded(a.category, query))
    ensures ArticleMatches(a, "") <==> a.title.Some? || a.category.Some? || a.hazardType.Some?
    ensures ArticleMatches(a, Lower(query)) == ArticleMatches(a, query)
  {
    MatchesFoldedEmpty(a.title);
    MatchesFoldedEmpty(a.category);
    MatchesFoldedEmpty(a.hazardType);
    MatchesFoldedIgnoresCase(a.title, query);
    MatchesFoldedIgnoresCase(a.category, query);
    MatchesFoldedIgnoresCase(a.hazardType, query);
  }

  /** `content.substring(0, 150) + "..."`: at most 150 characters of the
      content, always followed by the ellipsis. */
  function Preview(content: string): (p: string)
    ensures |p| == (if |content| < PreviewLength then |content| else PreviewLength) + 3
    ensures p[..|p| - 3] <= content
    ensures p[|p| - 3..] == "..."
    ensures |content| <= PreviewLength ==> p == content + "..."
  {
    var n := if |content| < PreviewLength then |content| else PreviewLength;
    content[..n] + "..."
  }

  /** The preview line of one article's card: the preview of its content,
      or `None` when the article has no content, where
      `content.substring(0, 150)` throws. */
  function CardPreview(a: Article): (p: Option<string>)
    ensures p.None? <==> a.content.None?
    ensures p.Some? ==> p.value == Preview(a.content.value)
    ensures p.Some? ==>
              && 3 <= |p.value| <= PreviewLength + 3
              && p.value[..|p.value| - 3] <= a.content.value
              && p.value[|p.value| - 3..] == "..."
  {
    if a.content.None? then None else Some(Preview(a.content.value))
  }

  /** The previews of a list of cards, in order; `None` when any card's
      preview throws, since the throw aborts the whole render. */
  function Previews(shown: seq<Article>): (r: Option<seq<string>>)
    ensures r.None? <==> exists i :: 0 <= i < |shown| && shown[i].content.None?
    ensures r.Some? ==> |r.value| == |shown|
    ensures r.Some? ==> forall i :: 0 <= i < |shown| ==> CardPreview(shown[i]) == Some(r.value[i])
    decreases |shown|
  {
    if |shown| == 0 then Some([])
    else
      var rest := Previews(shown[1..]);
      if shown[0].content.None? then None
      else if rest.None? then
        ghost var i :| 0 <= i < |shown| - 1 && shown[1..][i].content.None?;
        assert shown[i + 1].content.None?;
        None
      else
        var r := [Preview(shown[0].content.value)] + rest.value;
        assert forall i :: 1 <= i < |shown| ==> shown[i] == shown[1..][i - 1];
        Some(r)
  }

  /** The page body after the search: the preview of every shown card, or
      `None` when the render fails. */
  function PagePreviews(articles: seq<Article>, query: string): Option<seq<string>> {
    Previews(FilteredArticles(articles, query))
  }

  /** The page fails to render exactly when the search keeps an article
      without content, so the query decides whether the page crashes. */
  lemma PageFailsIffShownWithoutContent(articles: seq<Article>, query: string)
    ensures PagePreviews(articles, query).None? <==>
              exists a :: a in articles && ArticleMatches(a, query) && a.content.None?
    ensures PagePreviews(articles, query).Some? ==>
              |PagePreviews(articles, query).value| == |FilteredArticles(articles, query)|
  {
    var shown := FilteredArticles(articles, query);
    if exists a :: a in articles && ArticleMatches(a, query) && a.content.None? {
      var a :| a in articles && ArticleMatches(a, query) && a.content.None?;
      var i :| 0 <= i < |shown| && shown[i] == a;
    }
  }

  /** The preview determines the content when the content fits, and
      otherwise only its first 150 characters. */
  lemma PreviewDeterminesPrefix(c1: string, c2: string)
    requires Preview(c1) == Preview(c2)
    ensures |c1| <= PreviewLength && |c2| <= PreviewLength ==> c1 == c2
    ensures |c1| >= PreviewLength && |c2| >= PreviewLength ==> c1[..PreviewLength] == c2[..PreviewLength]
  {
    var p := Preview(c1);
    if |c1| <= PreviewLength && |c2| <= PreviewLength {
      assert c1 == p[..|p| - 3] == c2;
    }
  }

  /** A badge is shown only for a present, non-empty field. */
  predicate ShowsBadge(field: Option<string>) {
    field.Some? && field.value != ""
  }

  /** The badges shown on a card: category first, then hazard type. */
  function Badges(a: Article): (b: seq<string>)
    ensures |b| == (if ShowsBadge(a.category) then 1 else 0) + (if ShowsBadge(a.hazardType) then 1 else 0)
    ensures forall x :: x in b ==> x != ""
    ensures ShowsBadge(a.category) ==> b[0] == a.category.value
    ensures ShowsBadge(a.hazardType) ==> b[|b| - 1] == a.hazardType.value
  {
    (if ShowsBadge(a.category) then [a.category.value] else [])
    + (if ShowsBadge(a.hazardType) then [a.hazardType.value] else [])
  }
}

=== FILE: lists.dfy ===
/** `Array.prototype.filter` and the facts every list page relies on:
    the filtered list is an order-preserving sub-sequence of the input that
    keeps exactly the elements the predicate accepts. */
module Lists {

  /** `xs.filter(p)`. */
  function Filter<T>(p: T -> bool, xs: seq<T>): (r: seq<T>)
    ensures |r| <= |xs|
    ensures forall x :: x in r ==> x in xs && p(x)
    ensures forall x :: x in xs && p(x) ==> x in r
    decreases |xs|
  {
    if |xs| == 0 then []
    else if p(xs[0]) then [xs[0]] + Filter(p, xs[1..])
    else Filter(p, xs[1..])
  }

  /** `a` is obtained from `b` by deleting elements, keeping the order. */
  predicate IsSubsequence<T(==)>(a: seq<T>, b: seq<T>)
    decreases |b|
  {
    if |a| == 0 then true
    else if |b| == 0 then false
    else if a[0] == b[0] then IsSubsequence(a[1..], b[1..])
    else IsSubsequence(a, b[1..])
  }

  /** Number of elements of `xs` the predicate accepts: `xs.filter(p).length`
      computed independently of `Filter`. */
  function CountWhere<T>(p: T -> bool, xs: seq<T>): (n: nat)
    ensures n <= |xs|
    decreases |xs|
  {
    if |xs| == 0 then 0
    else (if p(xs[0]) then 1 else 0) + CountWhere(p, xs[1..])
  }

  /** The filtered list is an order-preserving sub-sequence of the input. */
  lemma {:induction false} FilterIsSubsequence<T>(p: T -> bool, xs: seq<T>)
    ensures IsSubsequence(Filter(p, xs), xs)
    decreases |xs|
  {
    if |xs| > 0 {
      FilterIsSubsequence(p, xs[1..]);
      var r := Filter(p, xs[1..]);
      if p(xs[0]) {
        assert ([xs[0]] + r)[1..] == r;
      } else {
        SubsequenceSkip(r, xs);
      }
    }
  }

  /** A sub-sequence of the tail of `b` is a sub-sequence of `b`. */
  lemma {:induction false} SubsequenceSkip<T>(a: seq<T>, b: seq<T>)
    requires |b| > 0
    requires IsSubsequence(a, b[1..])
    ensures IsSubsequence(a, b)
    decreases |a| + |b|
  {
    if |a| > 0 && a[0] == b[0] {
      SubsequenceDropHead(a, b[1..]);
    }
  }

  /** Removing the head of a sub-sequence keeps it a sub-sequence. */
  lemma {:induction false} SubsequenceDropHead<T>(a: seq<T>, c: seq<T>)
    requires |a| > 0
    requires IsSubsequence(a, c)
    ensures IsSubsequence(a[1..], c)
    decreases |a| + |c|
  {
    if a[0] == c[0] {
      if |a[1..]| > 0 {
        SubsequenceSkip(a[1..], c);
      }
    } else {
      SubsequenceDropHead(a, c[1..]);
      if |a[1..]| > 0 {
        SubsequenceSkip(a[1..], c);
      }
    }
  }

  /** The length of the filtered list is the number of accepted elements. */
  lemma {:induction false} FilterLength<T>(p: T -> bool, xs: seq<T>)
    ensures |Filter(p, xs)| == CountWhere(p, xs)
    decreases |xs|
  {
    if |xs| > 0 {
      FilterLength(p, xs[1..]);
    }
  }

  /** Filtering keeps every accepted element with its full multiplicity and
      drops every rejected one. */
  lemma {:induction false} FilterMultiset<T>(p: T -> bool, xs: seq<T>, x: T)
    ensures multiset(Filter(p, xs))[x] == if p(x) then multiset(xs)[x] else 0
    decreases |xs|
  {
    if |xs| > 0 {
      FilterMultiset(p, xs[1..], x);
      assert xs == [xs[0]] + xs[1..];
      if p(xs[0]) {
        assert Filter(p, xs) == [xs[0]] + Filter(p, xs[1..]);
      }
    }
  }

  /** Two predicates that never accept the same element together count at
      most every element once. */
  lemma {:induction false} DisjointCounts<T>(p: T -> bool, q: T -> bool, xs: seq<T>)
    requires forall x :: !(p(x) && q(x))
    ensures CountWhere(p, xs) + CountWhere(q, xs) <= |xs|
    decreases |xs|
  {
    if |xs| > 0 {
      DisjointCounts(p, q, xs[1..]);
    }
  }

  /** Filtering a list extended by one element extends the filtered list by
      that element exactly when it is accepted. */
  lemma {:induction false} FilterAppend<T>(p: T -> bool, xs: seq<T>, x: T)
    ensures Filter(p, xs + [x]) == Filter(p, xs) + (if p(x) then [x] else [])
    decreases |xs|
  {
    if |xs| == 0 {
      assert xs + [x] == [x];
    } else {
      assert (xs + [x])[0] == xs[0];
      assert (xs + [x])[1..] == xs[1..] + [x];
      FilterAppend(p, xs[1..], x);
    }
  }
}

=== FILE: missing_attributes.dfy ===
/** The attribute-provisioning script: create each configured boolean
    attribute of the users collection unless its key already exists,
    counting created and skipped attributes. */
module MissingAttributes {
  import opened Wrappers
  import opened Lists

  datatype AttributeSpec = AttributeSpec(key: string, kind: string, default: bool, required: bool)

  /** `attributesToCreate`, in processing order. */
  const Configured := [
    AttributeSpec("isApproved", "boolean", false, false),
    AttributeSpec("isBlocked", "boolean", false, false)
  ]

  /** The HTTP status of an "already exists" conflict. */
  const Conflict := 409

  /** The server's answer to `createBooleanAttribute` for one key. */
  datatype CreateReply = AttributeCreated | CreateError(code: int)

  /** An answer that `createAttribute` rethrows: any error but a conflict. */
  predicate Fatal(r: CreateReply) {
    r.CreateError? && r.code != Conflict
  }

  /** `createAttribute`: the created attribute, `null` on a conflict, or the
      rethrown error code. */
  function CreateAttribute(spec: AttributeSpec, reply: CreateReply): (r: Result<Option<AttributeSpec>, int>)
    ensures r.Failure? <==> Fatal(reply)
    ensures r.Success? ==> (r.value.None? <==> reply.CreateError?)
    ensures r.Failure? ==> r.error == reply.code && r.error != Conflict
  {
    match reply
    case AttributeCreated => Success(Some(spec))
    case CreateError(code) => if code == Conflict then Success(None) else Failure(code)
  }

  function Keys(attrs: seq<AttributeSpec>): (ks: seq<string>)
    ensures |ks| == |attrs|
    ensures forall i :: 0 <= i < |attrs| ==> ks[i] == attrs[i].key
  {
    seq(|attrs|, i requires 0 <= i < |attrs| => attrs[i].key)
  }

  /** The keys the loop has to create: configured keys not yet present, in
      configured order. */
  function Missing(keys: seq<string>, existing: seq<string>): (r: seq<string>)
    ensures forall k :: k in r ==> k in keys && k !in existing
    ensures forall k :: k in keys && k !in existing ==> k in r
    decreases |keys|
  {
    if |keys| == 0 then []
    else
      var last := keys[|keys| - 1];
      assert keys == keys[..|keys| - 1] + [last];
      Missing(keys[..|keys| - 1], existing) + (if last in existing then [] else [last])
  }

  function ToCreate(attrs: seq<AttributeSpec>, existing: seq<string>): seq<string> {
    Missing(Keys(attrs), existing)
  }

  /** `Missing` is the filter of the keys by absence from `existing`. */
  lemma {:induction false} MissingIsFilter(keys: seq<string>, existing: seq<string>)
    ensures Missing(keys, existing) == Filter((k: string) => k !in existing, keys)
    decreases |keys|
  {
    if |keys| > 0 {
      var init := keys[..|keys| - 1];
      var last := keys[|keys| - 1];
      MissingIsFilter(init, existing);
      assert keys == init + [last];
      FilterAppend((k: string) => k !in existing, init, last);
    }
  }

  /** The missing keys of a prefix are a prefix of the missing keys. */
  lemma {:induction false} MissingPrefix(keys: seq<string>, existing: seq<string>, n: nat)
    requires n <= |keys|
    ensures Missing(keys[..n], existing) <= Missing(keys, existing)
    decreases |keys| - n
  {
    if n < |keys| {
      MissingPrefix(keys, existing, n + 1);
      assert keys[..n + 1][..n] == keys[..n];
    } else {
      assert keys[..n] == keys;
    }
  }

  datatype Summary = Completed(created: nat, skipped: nat) | Aborted(code: int)

  /** The loop of `main`: skip present keys, create the others in order, and
      stop at the first error that is not a conflict. `attempted` lists the
      keys a creation request was sent for. A conflict still counts as
      created. */
  method ProcessAttributes(attrs: seq<AttributeSpec>, existing: seq<string>, server: string -> CreateReply)
    returns (outcome: Summary, attempted: seq<string>)
    ensures forall k :: k in attempted ==> k !in existing
    ensures attempted <= ToCreate(attrs, existing)
    ensures outcome.Completed? <==> forall k :: k in ToCreate(attrs, existing) ==> !Fatal(server(k))
    ensures outcome.Completed? ==>
              && attempted == ToCreate(attrs, existing)
              && outcome.created == |attempted|
              && outcome.created + outcome.skipped == |attrs|
    ensures outcome.Aborted? ==>
              && |attempted| > 0
              && Fatal(server(attempted[|attempted| - 1]))
              && outcome.code == server(attempted[|attempted| - 1]).code
              && forall j :: 0 <= j < |attempted| - 1 ==> !Fatal(server(attempted[j]))
  {
    var keys := Keys(attrs);
    var created := 0;
    var skipped := 0;
    attempted := [];
    var i := 0;
    while i < |attrs|
      invariant 0 <= i <= |attrs|
      invariant attempted == Missing(keys[..i], existing)
      invariant created == |attempted| && created + skipped == i
      invariant forall k :: k in attempted ==> !Fatal(server(k))
    {
      var key := attrs[i].key;
      assert keys[..i + 1][..i] == keys[..i];
      if key in existing {
        skipped := skipped + 1;
      } else {
        attempted := attempted + [key];
        var result := CreateAttribute(attrs[i], server(key));
        if result.Failure? {
          MissingPrefix(keys, existing, i + 1);
          assert key in ToCreate(attrs, existing) by {
            assert key in attempted;
          }
          return Aborted(result.error), attempted;
        }
        created := created + 1;
      }
      i := i + 1;
    }
    assert keys[..i] == keys;
    outcome := Completed(created, skipped);
  }

  /** `main`: list the existing keys (a failure exits 1), run the loop on
      the configured attributes, exit 0 on completion and 1 on an abort. */
  method RunScript(listing: Result<seq<string>, int>, server: string -> CreateReply)
    returns (exitCode: int, summary: Option<Summary>)
    ensures listing.Failure? ==> exitCode == 1 && summary.None?
    ensures exitCode == 0 <==>
              listing.Success? && forall k :: k in ToCreate(Configured, listing.value) ==> !Fatal(server(k))
    ensures exitCode == 0 ==> summary.Some? && summary.value.Completed? && summary.value.created + summary.value.skipped == |Configured|
  {
    if listing.Failure? {
      return 1, None;
    }
    var outcome, _ := ProcessAttributes(Configured, listing.value, server);
    exitCode := if outcome.Completed? then 0 else 1;
    summary := Some(outcome);
  }

  /** The configured attributes: `isApproved` then `isBlocked`, each a
      boolean, not required, defaulting to false. */
  lemma ConfiguredAttributes()
    ensures Keys(Configured) == ["isApproved", "isBlocked"]
    ensures forall a :: a in Configured ==> a.kind == "boolean" && !a.required && !a.default
  {
  }
}

=== FILE: page_guard.dfy ===
/** The redirect guard every dashboard page runs when the auth context
    changes, and the spinner-or-content rule of its render. */
module PageGuard {
  import opened Wrappers
  import opened AuthGate

  /** What the page's effect does: send the visitor to the login page, fetch
      the page's data, or nothing yet. */
  datatype Effect = RedirectToLogin | FetchData | Idle

  /** The effect run on every change of `user` or `loading`. */
  function OnAuthChange(authLoading: bool, user: Option<Account>): (e: Effect)
    ensures e == RedirectToLogin <==> !authLoading && user.None?
    ensures e == FetchData <==> user.Some?
    ensures e == Idle <==> authLoading && user.None?
  {
    if !authLoading && user.None? then RedirectToLogin
    else if user.Some? then FetchData
    else Idle
  }

  /** The page body is rendered only when the restore has finished and
      somebody is signed in; otherwise a spinner is shown. */
  predicate ShowsContent(authLoading: bool, user: Option<Account>): (shown: bool)
    ensures shown ==> OnAuthChange(authLoading, user) == FetchData
    ensures OnAuthChange(authLoading, user) != FetchData ==> !shown
    ensures authLoading ==> !shown
    ensures !authLoading && user.Some? ==> shown
  {
    !authLoading && user.Some?
  }

  /** Under the gate invariant, data is fetched and content shown only for
      an admin, and a page that shows content never redirects. */
  lemma GuardServesOnlyAdmins(s: AuthState)
    requires Gated(s)
    ensures OnAuthChange(s.loading, s.user) == FetchData ==> IsAdmin(s.user.value)
    ensures ShowsContent(s.loading, s.user) ==> IsAdmin(s.user.value)
    ensures ShowsContent(s.loading, s.user) ==> OnAuthChange(s.loading, s.user) == FetchData
  {
  }

  /** Once the session restore has finished the page never waits: it either
      fetches for the restored admin or redirects to the login page. */
  lemma AfterRestoreNeverIdle(s: AuthState, p: Provider, net: Net)
    ensures
      var r := CheckAuth(s, p, net).state;
      && OnAuthChange(r.loading, r.user) != Idle
      && (OnAuthChange(r.loading, r.user) == FetchData <==>
            net.getOk && p.session.Some? && IsAdmin(p.session.value))
  {
  }
}

=== FILE: permissions.dfy ===
/** The permission-setup script: the per-collection role table, the
    translation of one collection's roles into an ordered list of permission
    entries, and the loop that applies them collection by collection. */
module Permissions {

  datatype Action = Read | Create | Update | Delete

  /** The three roles the script grants to. */
  datatype Role = AnyRole | UsersRole | LabelRole(labelName: string)

  datatype Permission = Permission(action: Action, role: Role)

  /** One collection's row of the table: role strings per action. */
  datatype Rules = Rules(read: seq<string>, create: seq<string>, update: seq<string>, delete: seq<string>)

  const AnyName := "any"
  const UsersName := "users"
  const AdminLabelName := "label:admin"

  const AdminLabel := LabelRole("admin")

  function RolesFor(rules: Rules, a: Action): seq<string> {
    match a
    case Read => rules.read
    case Create => rules.create
    case Update => rules.update
    case Delete => rules.delete
  }

  /** Position of an entry in the output order: read, create, update,
      delete, and within an action the any/users entry before the label. */
  function Rank(p: Permission): nat {
    2 * ActionIndex(p.action) + (if p.role.LabelRole? then 1 else 0)
  }

  function ActionIndex(a: Action): nat {
    match a
    case Read => 0
    case Create => 1
    case Update => 2
    case Delete => 3
  }

  /** Entries appear in strictly increasing rank, hence without repetition. */
  predicate Ordered(ps: seq<Permission>) {
    forall i, j :: 0 <= i < j < |ps| ==> Rank(ps[i]) < Rank(ps[j])
  }

  /** Every entry's rank lies in `[lo, hi)`. */
  predicate InBand(ps: seq<Permission>, lo: nat, hi: nat) {
    forall p :: p in ps ==> lo <= Rank(p) < hi
  }

  /** Read entries: `any` takes precedence over `users`; the admin label is
      added after either. */
  function ReadEntries(roles: seq<string>): (r: seq<Permission>)
    ensures Ordered(r) && |r| <= 2 && InBand(r, 0, 2)
    ensures forall p :: p in r ==> p.action == Read
    ensures Permission(Read, AnyRole) in r <==> AnyName in roles
    ensures Permission(Read, UsersRole) in r <==> UsersName in roles && AnyName !in roles
    ensures Permission(Read, AdminLabel) in r <==> AdminLabelName in roles
    ensures forall p :: p in r ==> p.role == AnyRole || p.role == UsersRole || p.role == AdminLabel
  {
    (if AnyName in roles then [Permission(Read, AnyRole)]
     else if UsersName in roles then [Permission(Read, UsersRole)]
     else [])
    + (if AdminLabelName in roles then [Permission(Read, AdminLabel)] else [])
  }

  /** Create, update and delete entries: `users` then the admin label; `any`
      is not recognised for these actions. */
  function WriteEntries(a: Action, roles: seq<string>): (r: seq<Permission>)
    ensures Ordered(r) && |r| <= 2 && InBand(r, 2 * ActionIndex(a), 2 * ActionIndex(a) + 2)
    ensures forall p :: p in r ==> p.action == a
    ensures Permission(a, AnyRole) !in r
    ensures Permission(a, UsersRole) in r <==> UsersName in roles
    ensures Permission(a, AdminLabel) in r <==> AdminLabelName in roles
    ensures forall p :: p in r ==> p.role == UsersRole || p.role == AdminLabel
  {
    (if UsersName in roles then [Permission(a, UsersRole)] else [])
    + (if AdminLabelName in roles then [Permission(a, AdminLabel)] else [])
  }

  /** Two ordered lists whose ranks do not overlap concatenate in order. */
  lemma ConcatOrdered(a: seq<Permission>, b: seq<Permission>, lo: nat, mid: nat, hi: nat)
    requires Ordered(a) && Ordered(b)
    requires lo <= mid <= hi
    requires InBand(a, lo, mid) && InBand(b, mid, hi)
    ensures Ordered(a + b) && InBand(a + b, lo, hi)
  {
    assert forall p :: p in a + b ==> p in a || p in b;
    forall i, j | 0 <= i < j < |a + b| ensures Rank((a + b)[i]) < Rank((a + b)[j]) {
      if j < |a| {
      } else if i >= |a| {
        assert (a + b)[i] == b[i - |a|] && (a + b)[j] == b[j - |a|];
      } else {
        assert (a + b)[i] in a && (a + b)[j] in b;
      }
    }
  }

  /** The permission strings built for one collection: read, create, update
      and delete entries, in that order. */
  function BuildPermissions(rules: Rules): (r: seq<Permission>)
    ensures |r| <= 8
    ensures Ordered(r)
  {
    var rd := ReadEntries(rules.read);
    var cr := WriteEntries(Create, rules.create);
    var up := WriteEntries(Update, rules.update);
    var de := WriteEntries(Delete, rules.delete);
    ConcatOrdered(rd, cr, 0, 2, 4);
    ConcatOrdered(rd + cr, up, 0, 4, 6);
    ConcatOrdered(rd + cr + up, de, 0, 6, 8);
    rd + cr + up + de
  }

  /** An entry for action `a` is in the output exactly when the entries
      built for `a` alone contain it. */
  lemma {:induction false} GrantsOfAction(rules: Rules, p: Permission)
    ensures p in BuildPermissions(rules) <==>
              if p.action == Read then p in ReadEntries(rules.read)
              else p in WriteEntries(p.action, RolesFor(rules, p.action))
  {
    var rd := ReadEntries(rules.read);
    var cr := WriteEntries(Create, rules.create);
    var up := WriteEntries(Update, rules.update);
    var de := WriteEntries(Delete, rules.delete);
    assert BuildPermissions(rules) == rd + cr + up + de;
    assert p in rd + cr + up + de <==> p in rd || p in cr || p in up || p in de;
  }

  /** Which entries one collection gets: `read(any)` exactly when `any` is
      listed for read, `read(users)` only when `users` is listed and `any` is
      not, no `any` for the other actions, a users entry for them exactly
      when `users` is listed, and an admin-label entry for every action
      exactly when `label:admin` is listed. Nothing else is granted. */
  lemma BuildPermissionsGrants(rules: Rules)
    ensures Permission(Read, AnyRole) in BuildPermissions(rules) <==> AnyName in rules.read
    ensures Permission(Read, UsersRole) in BuildPermissions(rules) <==> UsersName in rules.read && AnyName !in rules.read
    ensures forall a :: a != Read ==> Permission(a, AnyRole) !in BuildPermissions(rules)
    ensures forall a :: a != Read ==> (Permission(a, UsersRole) in BuildPermissions(rules) <==> UsersName in RolesFor(rules, a))
    ensures forall a :: Permission(a, AdminLabel) in BuildPermissions(rules) <==> AdminLabelName in RolesFor(rules, a)
    ensures forall p :: p in BuildPermissions(rules) ==> p.role == AnyRole || p.role == UsersRole || p.role == AdminLabel
  {
    forall p: Permission
      ensures p in BuildPermissions(rules) <==>
                if p.action == Read then p in ReadEntries(rules.read)
                else p in WriteEntries(p.action, RolesFor(rules, p.action))
    {
      GrantsOfAction(rules, p);
    }
  }

  /** Only the membership of the three recognised role strings matters:
      any other string in the table is ignored. */
  lemma {:induction false} UnknownRolesIgnored(r1: Rules, r2: Rules)
    requires forall a, k :: k in {AnyName, UsersName, AdminLabelName} ==> (k in RolesFor(r1, a) <==> k in RolesFor(r2, a))
    ensures BuildPermissions(r1) == BuildPermissions(r2)
  {
    forall a | true
      ensures (AnyName in RolesFor(r1, a) <==> AnyName in RolesFor(r2, a))
      ensures (UsersName in RolesFor(r1, a) <==> UsersName in RolesFor(r2, a))
      ensures (AdminLabelName in RolesFor(r1, a) <==> AdminLabelName in RolesFor(r2, a))
    {
    }
    assert ReadEntries(r1.read) == ReadEntries(r2.read) by {
      assert RolesFor(r1, Read) == r1.read && RolesFor(r2, Read) == r2.read;
    }
    assert RolesFor(r1, Create) == r1.create && RolesFor(r2, Create) == r2.create;
    assert RolesFor(r1, Update) == r1.update && RolesFor(r2, Update) == r2.update;
    assert RolesFor(r1, Delete) == r1.delete && RolesFor(r2, Delete) == r2.delete;
  }

  // ---- the table ----

  /** `PERMISSIONS`, in the order its entries are processed. */
  const Table: seq<(string, Rules)> := [
    ("users",              Rules(["any"], ["users"], ["users", "label:admin"], ["label:admin"])),
    ("reports",            Rules(["any"], ["users"], ["users", "label:admin"], ["label:admin"])),
    ("emergency_contacts", Rules(["users", "label:admin"], ["users"], ["users", "label:admin"], ["users", "label:admin"])),
    ("chats",              Rules(["users", "label:admin"], ["users"], ["users", "label:admin"], ["label:admin"])),
    ("messages",           Rules(["users", "label:admin"], ["users"], ["users", "label:admin"], ["label:admin"])),
    ("knowledge_base",     Rules(["any"], ["label:admin"], ["label:admin"], ["label:admin"])),
    ("trusted_devices",    Rules(["users"], ["users"], ["users"], ["users", "label:admin"])),
    ("login_history",      Rules(["users", "label:admin"], ["users"], ["label:admin"], ["label:admin"]))
  ]

  /** The knowledge base grants reading to anyone and every write to admins
      only. */
  lemma KnowledgeBaseAdminOnly()
    ensures Table[5].0 == "knowledge_base"
    ensures BuildPermissions(Table[5].1) ==
              [Permission(Read, AnyRole), Permission(Create, AdminLabel),
               Permission(Update, AdminLabel), Permission(Delete, AdminLabel)]
  {
    var r := Table[5].1;
    assert ReadEntries(r.read) == [Permission(Read, AnyRole)];
    assert WriteEntries(Create, r.create) == [Permission(Create, AdminLabel)];
    assert WriteEntries(Update, r.update) == [Permission(Update, AdminLabel)];
    assert WriteEntries(Delete, r.delete) == [Permission(Delete, AdminLabel)];
  }

  /** Deletion is granted to admins and not to signed-in users for users,
      reports, chats, messages and login history. */
  lemma DeleteAdminOnly(i: nat)
    requires i in {0, 1, 3, 4, 7}
    ensures Table[i].0 in {"users", "reports", "chats", "messages", "login_history"}
    ensures Permission(Delete, AdminLabel) in BuildPermissions(Table[i].1)
    ensures Permission(Delete, UsersRole) !in BuildPermissions(Table[i].1)
  {
    assert RolesFor(Table[i].1, Delete) == ["label:admin"];
    BuildPermissionsGrants(Table[i].1);
  }

  /** The publicly readable collections (users, reports, knowledge base)
      list only `any` and get `read(any)` without `read(users)`. */
  lemma PublicReadPrecedence(i: nat)
    requires i in {0, 1, 5}
    ensures Permission(Read, AnyRole) in BuildPermissions(Table[i].1)
    ensures Permission(Read, UsersRole) !in BuildPermissions(Table[i].1)
  {
    assert Table[i].1.read == ["any"];
    BuildPermissionsGrants(Table[i].1);
  }

  // ---- applying the table ----

  /** The collection settings `updateCollection` writes. */
  datatype Collection = Collection(name: string, permissions: seq<Permission>, documentSecurity: bool, enabled: bool)

  /** Collection ids named by a table. */
  function Ids(table: seq<(string, Rules)>): set<string> {
    set i | 0 <= i < |table| :: table[i].0
  }

  /** A table is an object literal: no id is listed twice. */
  predicate DistinctIds(table: seq<(string, Rules)>) {
    forall i, j :: 0 <= i < j < |table| ==> table[i].0 != table[j].0
  }

  /** The collection as a successful update leaves it: same name, the
      entries `build` makes of its roles, document security off, enabled. */
  function Updated(build: Rules -> seq<Permission>, row: (string, Rules)): Collection {
    Collection(row.0, build(row.1), false, true)
  }

  /** The loop of `setupPermissions` for any entry builder: for every row in
      order, replace the collection's settings. A missing collection (404) or
      any other failure of one update is logged and the loop carries on with
      the next row. */
  method ApplyTable(table: seq<(string, Rules)>, build: Rules -> seq<Permission>,
                    store: map<string, Collection>, failing: set<string>)
    returns (result: map<string, Collection>, succeeded: seq<bool>)
    requires DistinctIds(table)
    ensures |succeeded| == |table|
    ensures result.Keys == store.Keys
    ensures forall i :: 0 <= i < |table| ==> (succeeded[i] <==> table[i].0 in store && table[i].0 !in failing)
    ensures forall i :: 0 <= i < |table| && succeeded[i] ==> result[table[i].0] == Updated(build, table[i])
    ensures forall c :: c in store && (c in failing || c !in Ids(table)) ==> result[c] == store[c]
  {
    result := store;
    succeeded := [];
    var i := 0;
    while i < |table|
      invariant 0 <= i <= |table|
      invariant |succeeded| == i
      invariant result.Keys == store.Keys
      invariant forall k :: 0 <= k < i ==> (succeeded[k] <==> table[k].0 in store && table[k].0 !in failing)
      invariant forall k :: 0 <= k < i && succeeded[k] ==> result[table[k].0] == Updated(build, table[k])
      invariant forall c :: c in result && result[c] != store[c] ==> c !in failing && c in Ids(table)
    {
      var id := table[i].0;
      assert id in Ids(table);
      if id in store && id !in failing {
        result := result[id := Updated(build, table[i])];
        succeeded := succeeded + [true];
      } else {
        succeeded := succeeded + [false];
      }
      i := i + 1;
    }
  }

  /** `setupPermissions`: every existing collection of the table whose update
      does not fail gets exactly the entries built from its row; the others,
      and collections the table does not name, keep their settings. */
  method SetupPermissions(table: seq<(string, Rules)>, store: map<string, Collection>, failing: set<string>)
    returns (result: map<string, Collection>, succeeded: seq<bool>)
    requires DistinctIds(table)
    ensures |succeeded| == |table|
    ensures result.Keys == store.Keys
    ensures forall i :: 0 <= i < |table| ==> (succeeded[i] <==> table[i].0 in store && table[i].0 !in failing)
    ensures forall i :: 0 <= i < |table| && succeeded[i] ==>
              result[table[i].0] == Collection(table[i].0, BuildPermissions(table[i].1), false, true)
    ensures forall c :: c in store && (c in failing || c !in Ids(table)) ==> result[c] == store[c]
  {
    result, succeeded := ApplyTable(table, BuildPermissions, store, failing);
  }

  /** The script's own table lists every collection once. */
  lemma TableIdsDistinct()
    ensures DistinctIds(Table)
    ensures |Table| == 8
  {
  }
}

=== FILE: reports_page.dfy ===
/** The report-management page: the search and status filter over the
    fetched reports, the severity and status colour classifiers, and the
    verify/resolve/reject actions with the status each one writes. */
module ReportsPage {
  import opened Wrappers
  import opened Text
  import opened Lists

  /** A report document; every field the page reads may be missing. */
  datatype Report = Report(
    id: string,
    kind: Option<string>,
    severity: Option<string>,
    description: Option<string>,
    location: Option<string>,
    status: Option<string>)

  /** The value of the status drop-down that switches the status filter off. */
  const AllStatuses := "all"

  /** The search box: the lowered query occurs in the lowered type,
      description or location. */
  predicate MatchesSearch(r: Report, query: string) {
    MatchesFolded(r.kind, query) || MatchesFolded(r.description, query) || MatchesFolded(r.location, query)
  }

  /** The status drop-down: exact, case-sensitive equality unless "all". */
  predicate MatchesStatus(r: Report, statusFilter: string) {
    statusFilter == AllStatuses || r.status == Some(statusFilter)
  }

  predicate Kept(r: Report, query: string, statusFilter: string) {
    MatchesSearch(r, query) && MatchesStatus(r, statusFilter)
  }

  /** `filteredReports`: the reports shown, in fetched order. */
  function FilteredReports(reports: seq<Report>, query: string, statusFilter: string): (shown: seq<Report>)
    ensures IsSubsequence(shown, reports)
    ensures |shown| <= |reports|
    ensures forall r :: r in reports ==> (r in shown <==> MatchesSearch(r, query) && MatchesStatus(r, statusFilter))
    ensures statusFilter != AllStatuses ==> forall r :: r in shown ==> r.status == Some(statusFilter)
    ensures forall r :: r in shown ==> r in reports
  {
    var p := (r: Report) => Kept(r, query, statusFilter);
    FilterIsSubsequence(p, reports);
    Filter(p, reports)
  }

  /** The number shown in "Showing n of m reports" counts every kept report
      with its multiplicity. */
  lemma FilteredCount(reports: seq<Report>, query: string, statusFilter: string)
    ensures |FilteredReports(reports, query, statusFilter)| == CountWhere((r: Report) => Kept(r, query, statusFilter), reports)
  {
    FilterLength((r: Report) => Kept(r, query, statusFilter), reports);
  }

  /** Filtering never merges or duplicates reports: a kept report appears
      as often as it was fetched, a dropped one not at all. */
  lemma FilteredMultiplicity(reports: seq<Report>, query: string, statusFilter: string, r: Report)
    ensures multiset(FilteredReports(reports, query, statusFilter))[r] ==
              if Kept(r, query, statusFilter) then multiset(reports)[r] else 0
  {
    FilterMultiset((x: Report) => Kept(x, query, statusFilter), reports, r);
  }

  /** A query longer than every searched field of a report never matches it. */
  lemma LongQueryMatchesNothing(r: Report, query: string)
    requires r.kind.Some? ==> |r.kind.value| < |query|
    requires r.description.Some? ==> |r.description.value| < |query|
    requires r.location.Some? ==> |r.location.value| < |query|
    ensures !MatchesSearch(r, query)
  {
    MatchesFoldedTooLong(r.kind, query);
    MatchesFoldedTooLong(r.description, query);
    MatchesFoldedTooLong(r.location, query);
  }

  /** The search ignores the case of the query and a report with none of the
      three searched fields never matches, even the empty query; the empty
      query matches every report with at least one of them. */
  lemma SearchFacts(r: Report, query: string)
    ensures MatchesSearch(r, Lower(query)) == MatchesSearch(r, query)
    ensures r.kind.None? && r.description.None? && r.location.None? ==> !MatchesSearch(r, query)
    ensures MatchesSearch(r, "") <==> r.kind.Some? || r.description.Some? || r.location.Some?
  {
    MatchesFoldedIgnoresCase(r.kind, query);
    MatchesFoldedIgnoresCase(r.description, query);
    MatchesFoldedIgnoresCase(r.location, query);
    MatchesFoldedEmpty(r.kind);
    MatchesFoldedEmpty(r.description);
    MatchesFoldedEmpty(r.location);
  }

  /** With "all" selected the status places no constraint: the shown list is
      exactly the search result. */
  lemma AllStatusesIsSearchOnly(reports: seq<Report>, query: string)
    ensures forall r :: r in reports ==> (r in FilteredReports(reports, query, AllStatuses) <==> MatchesSearch(r, query))
  {
  }

  // ---- colour classifiers ----

  datatype Colour = Red | Orange | Yellow | Blue | Green | Gray

  /** `getSeverityColor`: case-insensitive on the severity word. */
  function SeverityColour(severity: Option<string>): (c: Colour)
    ensures c in {Red, Orange, Yellow, Blue, Gray}
    ensures severity.None? ==> c == Gray
  {
    if severity.None? then Gray
    else
      var s := Lower(severity.value);
      if s == "critical" then Red
      else if s == "high" then Orange
      else if s == "medium" then Yellow
      else if s == "low" then Blue
      else Gray
  }

  /** `getStatusColor`: case-insensitive on the status word. */
  function StatusColour(status: Option<string>): (c: Colour)
    ensures c in {Green, Yellow, Red, Gray}
    ensures status.None? ==> c == Gray
  {
    if status.None? then Gray
    else
      var s := Lower(status.value);
      if s == "verified" || s == "resolved" then Green
      else if s == "pending" || s == "submitted" then Yellow
      else if s == "rejected" then Red
      else Gray
  }

  /** Both classifiers depend on the word only up to case. */
  lemma ColoursIgnoreCase(word: string)
    ensures SeverityColour(Some(word)) == SeverityColour(Some(Lower(word)))
    ensures StatusColour(Some(word)) == StatusColour(Some(Lower(word)))
  {
    LowerIsLower(word);
  }

  /** The severity colour is red, orange, yellow or blue exactly for the four
      severity words in any case, and gray for anything else or nothing. */
  lemma SeverityColourTable(severity: Option<string>)
    ensures SeverityColour(severity) == Red <==> severity.Some? && Lower(severity.value) == "critical"
    ensures SeverityColour(severity) == Orange <==> severity.Some? && Lower(severity.value) == "high"
    ensures SeverityColour(severity) == Yellow <==> severity.Some? && Lower(severity.value) == "medium"
    ensures SeverityColour(severity) == Blue <==> severity.Some? && Lower(severity.value) == "low"
    ensures SeverityColour(severity) != Green
  {
  }

  /** The status colour is green for verified/resolved, yellow for
      pending/submitted, red for rejected, in any case, and gray otherwise. */
  lemma StatusColourTable(status: Option<string>)
    ensures StatusColour(status) == Green <==> status.Some? && Lower(status.value) in {"verified", "resolved"}
    ensures StatusColour(status) == Yellow <==> status.Some? && Lower(status.value) in {"pending", "submitted"}
    ensures StatusColour(status) == Red <==> status.Some? && Lower(status.value) == "rejected"
    ensures status.None? ==> StatusColour(status) == Gray
    ensures StatusColour(status) !in {Orange, Blue}
  {
  }

  // ---- actions ----

  datatype Action = Verify | Resolve | Reject

  /** The status value each button writes. */
  function ActionStatus(a: Action): (s: string)
    ensures IsLower(s)
    ensures a == Verify <==> s == "verified"
    ensures a == Resolve <==> s == "resolved"
    ensures a == Reject <==> s == "rejected"
  {
    match a
    case Verify => "verified"
    case Resolve => "resolved"
    case Reject => "rejected"
  }

  /** The three buttons are shown unless the status is exactly "verified" or
      "resolved" (case-sensitive, unlike the colour). */
  predicate ActionsOffered(r: Report): (offered: bool)
    ensures offered <==> r.status != Some(ActionStatus(Verify)) && r.status != Some(ActionStatus(Resolve))
  {
    r.status != Some("verified") && r.status != Some("resolved")
  }

  datatype UpdateError = NotFound | UpdateFailed

  /** `updateReportStatus(id, status)` on the store: the matching document
      gets the new status and nothing else changes; a failed call changes
      nothing. */
  function UpdateReportStatus(store: seq<Report>, id: string, a: Action, ok: bool): (r: Result<seq<Report>, UpdateError>)
    ensures r.Success? <==> ok && exists i :: 0 <= i < |store| && store[i].id == id
    ensures r.Success? ==> |r.value| == |store|
    ensures r.Success? ==> forall i :: 0 <= i < |store| && store[i].id == id ==>
              r.value[i] == store[i].(status := Some(ActionStatus(a)))
    ensures r.Success? ==> forall i :: 0 <= i < |store| && store[i].id != id ==> r.value[i] == store[i]
  {
    if !ok then Failure(UpdateFailed)
    else if forall i :: 0 <= i < |store| ==> store[i].id != id then Failure(NotFound)
    else Success(seq(|store|, i requires 0 <= i < |store| =>
                   if store[i].id == id then store[i].(status := Some(ActionStatus(a))) else store[i]))
  }

  /** Verifying or resolving a report retires its buttons and colours it
      green; rejecting colours it red and leaves the buttons offered. */
  lemma ActionOutcome(r: Report, a: Action)
    ensures ActionsOffered(r.(status := Some(ActionStatus(a)))) <==> a == Reject
    ensures StatusColour(Some(ActionStatus(a))) == if a == Reject then Red else Green
  {
    LowerFixesLower(ActionStatus(a));
  }

  /** A status written in another case is coloured as verified but still
      offers the actions: visibility is case-sensitive, colour is not. */
  lemma VisibilityIsCaseSensitive(r: Report)
    requires r.status == Some("Verified")
    ensures StatusColour(r.status) == Green
    ensures ActionsOffered(r)
  {
    assert Lower("Verified") == "verified" by {
      assert Lower("Verified")[0] == 'v';
    }
  }
}

=== FILE: text.dfy ===
/** String primitives the pages and scripts rely on: JavaScript's
    `toLowerCase` (restricted to ASCII letters) and `includes` (substring). */
module Text {
  import opened Wrappers

  /** Lower-cases one ASCII upper-case letter; every other character is kept. */
  function LowerChar(c: char): char {
    if 'A' <= c <= 'Z' then (c as int + 32) as char else c
  }

  predicate IsLowerChar(c: char) {
    !('A' <= c <= 'Z')
  }

  /** `s.toLowerCase()` over ASCII. */
  function Lower(s: string): (r: string)
    ensures |r| == |s|
    ensures forall i :: 0 <= i < |s| ==> r[i] == LowerChar(s[i])
  {
    seq(|s|, i requires 0 <= i < |s| => LowerChar(s[i]))
  }

  /** Every character of `s` is already lower case. */
  predicate IsLower(s: string) {
    forall i :: 0 <= i < |s| ==> IsLowerChar(s[i])
  }

  /** `s.includes(q)`: `q` occurs in `s` as a contiguous block. */
  predicate Contains(s: string, q: string)
    decreases |s|
  {
    q <= s || (|s| > 0 && Contains(s[1..], q))
  }

  /** The result of lowering is lower case, and lowering changes nothing
      in an already lower-case string: lowering is idempotent. */
  lemma LowerIsLower(s: string)
    ensures IsLower(Lower(s))
    ensures Lower(Lower(s)) == Lower(s)
  {
    assert forall i :: 0 <= i < |s| ==> LowerChar(LowerChar(s[i])) == LowerChar(s[i]);
  }

  /** Lowering leaves exactly the strings without upper-case letters fixed. */
  lemma LowerFixesLower(s: string)
    ensures Lower(s) == s <==> IsLower(s)
  {
    if Lower(s) == s {
      forall i | 0 <= i < |s| ensures IsLowerChar(s[i]) {
        assert LowerChar(s[i]) == s[i];
      }
    }
    if IsLower(s) {
      assert forall i :: 0 <= i < |s| ==> Lower(s)[i] == s[i];
    }
  }

  /** The reference meaning of `Contains`: some suffix of `s` starts with `q`. */
  lemma {:induction false} ContainsAt(s: string, q: string)
    ensures Contains(s, q) <==> exists i :: 0 <= i <= |s| && q <= s[i..]
    decreases |s|
  {
    if q <= s {
      assert q <= s[0..];
    } else if |s| == 0 {
      forall i | 0 <= i <= |s| ensures !(q <= s[i..]) {
        assert s[i..] == s;
      }
    } else {
      ContainsAt(s[1..], q);
      if Contains(s[1..], q) {
        var i :| 0 <= i <= |s[1..]| && q <= s[1..][i..];
        assert s[1..][i..] == s[i + 1..];
      } else {
        forall i | 0 <= i <= |s| ensures !(q <= s[i..]) {
          if i == 0 {
            assert s[i..] == s;
          } else {
            assert s[1..][i - 1..] == s[i..];
          }
        }
      }
    }
  }

  /** Every string contains the empty string: an empty search term matches
      any present field. */
  lemma ContainsEmpty(s: string)
    ensures Contains(s, "")
  {
  }

  /** A string only contains strings no longer than itself. */
  lemma {:induction false} ContainsLength(s: string, q: string)
    requires Contains(s, q)
    ensures |q| <= |s|
    decreases |s|
  {
    if !(q <= s) {
      ContainsLength(s[1..], q);
    }
  }

  /** A string contains itself. */
  lemma ContainsSelf(s: string)
    ensures Contains(s, s)
  {
  }

  /** `field?.toLowerCase().includes(query.toLowerCase())`: an absent field
      never matches; a present one matches when the lowered query occurs in
      the lowered field. */
  predicate MatchesFolded(field: Option<string>, query: string) {
    field.Some? && Contains(Lower(field.value), Lower(query))
  }

  /** The folded match ignores the case of the query and of the field. */
  lemma MatchesFoldedIgnoresCase(field: Option<string>, query: string)
    ensures MatchesFolded(field, Lower(query)) == MatchesFolded(field, query)
    ensures field.Some? ==> MatchesFolded(Some(Lower(field.value)), query) == MatchesFolded(field, query)
  {
    LowerIsLower(query);
    if field.Some? {
      LowerIsLower(field.value);
    }
  }

  /** A query longer than the field never matches it. */
  lemma MatchesFoldedTooLong(field: Option<string>, query: string)
    requires field.Some? ==> |field.value| < |query|
    ensures !MatchesFolded(field, query)
  {
    if field.Some? && MatchesFolded(field, query) {
      ContainsLength(Lower(field.value), Lower(query));
      assert false;
    }
  }

  /** An empty query matches exactly the present fields. */
  lemma MatchesFoldedEmpty(field: Option<string>)
    ensures MatchesFolded(field, "") <==> field.Some?
  {
    if field.Some? {
      ContainsEmpty(Lower(field.value));
    }
  }
}

=== FILE: users_page.dfy ===
/** The user-management page: its search and the verified badge. */
module UsersPage {
  import opened Wrappers
  import opened Text
  import opened Lists

  /** A user profile document; every field the page reads may be missing. */
  datatype User = User(
    id: string,
    fullName: Option<string>,
    email: Option<string>,
    phoneNumber: Option<string>,
    location: Option<string>,
    verified: Option<bool>)

  /** `phoneNumber?.includes(query)`: raw, case-sensitive, unlowered. */
  predicate PhoneMatches(phone: Option<string>, query: string) {
    phone.Some? && Contains(phone.value, query)
  }

  /** The search: name and e-mail by folded substring, phone by raw
      substring. */
  predicate UserMatches(u: User, query: string) {
    MatchesFolded(u.fullName, query) || MatchesFolded(u.email, query) || PhoneMatches(u.phoneNumber, query)
  }

  /** `filteredUsers`: the users shown, in fetched order. */
  function FilteredUsers(users: seq<User>, query: string): (shown: seq<User>)
    ensures IsSubsequence(shown, users)
    ensures |shown| <= |users|
    ensures forall u :: u in users ==> (u in shown <==> UserMatches(u, query))
    ensures forall u :: u in shown ==> u in users
  {
    FilterIsSubsequence((u: User) => UserMatches(u, query), users);
    Filter((u: User) => UserMatches(u, query), users)
  }

  /** A user without name, e-mail and phone never matches; the empty query
      keeps exactly the users with at least one of them. */
  lemma EmptyQueryKeepsPresent(u: User)
    ensures u.fullName.None? && u.email.None? && u.phoneNumber.None? ==> forall q :: !UserMatches(u, q)
    ensures UserMatches(u, "") <==> u.fullName.Some? || u.email.Some? || u.phoneNumber.Some?
  {
    MatchesFoldedEmpty(u.fullName);
    MatchesFoldedEmpty(u.email);
    if u.phoneNumber.Some? {
      ContainsEmpty(u.phoneNumber.value);
    }
  }

  /** Name and e-mail ignore the query's case; the phone does not: the same
      text "Ab" matches query "ab" as a name but not as a phone number. */
  lemma PhoneIsCaseSensitive()
    ensures UserMatches(User("1", Some("Ab"), None, None, None, None), "ab")
    ensures !UserMatches(User("1", None, None, Some("Ab"), None, None), "ab")
    ensures UserMatches(User("1", None, None, Some("Ab"), None, None), "Ab")
  {
    assert Lower("Ab") == "ab" by {
      assert Lower("Ab")[0] == 'a';
    }
    assert Lower("ab") == "ab" by {
      LowerFixesLower("ab");
    }
    ContainsSelf("ab");
    ContainsSelf("Ab");
    assert !Contains("Ab", "ab") by {
      ContainsAt("Ab", "ab");
      forall i | 0 <= i <= 2 ensures !("ab" <= "Ab"[i..]) {
        if i == 0 {
          assert "Ab"[0..][0] == 'A';
        }
      }
    }
  }

  /** For the name and e-mail fields, the query's case never matters. */
  lemma NameAndEmailIgnoreQueryCase(u: User, query: string)
    requires u.phoneNumber.None?
    ensures UserMatches(u, Lower(query)) == UserMatches(u, query)
  {
    MatchesFoldedIgnoresCase(u.fullName, query);
    MatchesFoldedIgnoresCase(u.email, query);
  }

  /** The badge text: "Verified" exactly when `verified` is true, "Pending"
      when it is false or missing. */
  function VerifiedBadge(u: User): (badge: string)
    ensures badge == "Verified" <==> u.verified == Some(true)
    ensures badge == "Pending" <==> u.verified != Some(true)
  {
    if u.verified == Some(true) then "Verified" else "Pending"
  }

  /** The badge's colour class: green for a verified user, yellow otherwise. */
  datatype BadgeColour = GreenBadge | YellowBadge

  function VerifiedBadgeColour(u: User): (c: BadgeColour)
    ensures c == GreenBadge <==> u.verified == Some(true)
  {
    if u.verified == Some(true) then GreenBadge else YellowBadge
  }

  /** The badge's colour and text always agree: green exactly when it reads
      "Verified", yellow exactly when it reads "Pending". */
  lemma BadgeColourMatchesText(u: User)
    ensures VerifiedBadgeColour(u) == GreenBadge <==> VerifiedBadge(u) == "Verified"
    ensures VerifiedBadgeColour(u) == YellowBadge <==> VerifiedBadge(u) == "Pending"
  {
  }
}

=== FILE: wrappers.dfy ===
/** Failure-compatible wrappers shared by every module of the model.
    `Option` stands for a JavaScript value that may be `undefined`/`null`;
    `Result` for a promise that resolves with a value or rejects with an error. */
module Wrappers {

  datatype Option<+T> = None | Some(value: T) {

    /** The carried value, or `default` when absent. */
    function GetOr(default: T): T {
      match this
      case Some(v) => v
      case None => default
    }
  }

  datatype Result<+R, +E> = Success(value: R) | Failure(error: E) {

    predicate IsFailure() {
      Failure?
    }

    function PropagateFailure<U>(): Result<U, E>
      requires Failure?
    {
      Failure(error)
    }

    function Extract(): R
      requires Success?
    {
      value
    }
  }
}
